=== FILE: README.md ===
# FarmHelper backend in Dafny

This project models the server side of FarmHelper. FarmHelper registers farmers through an emailed one-time code and logs them in with a signed token. It also turns a farmer's soil and crop description into an AI-generated fertilizer advisory. The model covers six parts:

- **Account store** (`records.dfy`). The three Mongoose collections (User, PendingUser, Otp) are sequences in insertion order. An unsorted `findOne` or `deleteOne` is answered by the first match in that order; this is a choice of the model, since MongoDB promises no order there. The model includes the `required` and `unique` index rules on create, `deleteOne` by email, and the TTL index's removal of expired codes.
- **One-time codes** (`otp_controller.dfy`). `sendOtp` draws a six-digit code valid for 15 minutes. `verifyOtp` checks the newest code for an email and promotes the pending registration to a User.
- **Registration and login** (`auth_controller.dfy`). `register` validates, checks conflicts, upserts the pending registration with the bcrypt hash, and issues a code. `login` compares the password and signs `{sub, username}` for one day.
- **Token guard** (`auth_middleware.dfy`). `verifyToken` reads the `authorization` header and takes the second space-separated field as the token. It then either answers 401 or passes the decoded claims on.
- **Advisory pipeline** (`soil_prompt.dfy`, `extract_json.dfy`, `ai_controller.dfy`):
  - the prompt template;
  - greedy `{…}` extraction from the model's reply;
  - the `soil` handler's control flow.
- **The whole account flow** (`session.dfy`): sign up, confirm, log in, and pass the guard.

JavaScript value semantics that matter here are modelled explicitly in `js_values.dfy`:

- truthiness;
- strict `===` against a stored string;
- Mongoose's cast of a number to a String path;
- template interpolation, where `undefined` prints as `"undefined"`.

Handlers are pure functions from a request and a store to a reply and a new store. The `soil` handler and the middleware can attempt more than one response. For these two, a run is a trace of the responses attempted and the other observable steps.

The following are function parameters, never implementations:

- bcrypt `hash`/`compare`;
- `jwt.sign`/`jwt.verify`; of `jwt.verify` itself the model keeps only its shortcut that a falsy token is an error before any check (`AuthMiddleware.VerifyJwt`);
- `JSON.parse`;
- the Gemini call;
- the `speech_index` property read;
- the clock (`now`, in milliseconds);
- `Math.random()` (`rnd`);
- the fresh ObjectId (`newId`).

Where the written design and the code differ, the model follows the code:

- The conflict check in `register` looks at one User matching the username or the email (in the model, the first in insertion order). For that User only, it tests email first and then username. A request can therefore get "Username already exists!" even though a different User holds its email.
- JSON extraction does not take the first `{…}` block. It takes the span from the first `{` to the last `}` of the reply, because the regular expression is greedy.
- `message` is required by the `soil` handler, although the prompt builder treats it as optional.
- The scheme word of the `Authorization` header is never checked.
- Codes live 15 minutes (`OtpController.OtpLifetimeMs`). The mail text says 10 minutes.

## Model

| member | source | states |
|---|---|---|
| Common.FirstMatch | Backend/controller/otpController.js:111 | The index of the first record in natural order that satisfies the filter. No earlier record satisfies it. It is absent exactly when no record satisfies it. |
| Common.DeleteFirst | Backend/controller/otpController.js:123 | `deleteOne` removes exactly the first matching record, every other record keeping its order, and leaves the collection unchanged when nothing matches. |
| JsValues.CastString | Backend/controller/authController.js:18 | Casting a request field to a String path: only `undefined` stays absent, strings are kept, and a truthy value yields a non-empty string. |
| JsValues.Interpolate | Backend/AI/soilFertilizerPrompt.js:13-17 | `${x}` renders `undefined` as "undefined" and every other field as its String cast. |
| JsValues.NatToDecimal | Backend/controller/otpController.js:10 | The decimal string of a number stored into a String path is all digits and has a leading zero only for zero. |
| JsValues.DecimalRoundTrip | Backend/controller/otpController.js:10 | Reading the stored decimal string back gives the original number. |
| JsValues.DecimalLength | Backend/controller/otpController.js:8-10 | A positive number's decimal string has length d exactly when 10^(d-1) <= n < 10^d. |
| JsValues.SixDigitsIff | Backend/controller/otpController.js:8-10 | A code's decimal string has six characters if and only if the code lies in 100000..999999. |
| Records.CreateUser | Backend/Model/userModel.js:5-21 | `User.create` succeeds exactly when username and email are non-empty and no User shares the id, username or email. It appends the document and keeps the unique indexes. |
| Records.CreatePending | Backend/Model/pendingUserModel.js:5-21 | `PendingUser.create` succeeds exactly when username and email are non-empty and unused among pending records. It appends and keeps the indexes and validators. |
| Records.DeletePendingByEmail | Backend/controller/otpController.js:122 | Removes exactly the first pending record with the email; the others keep their order and nothing new appears. Under the unique email index none with the email remains. |
| Records.DeleteOtpByEmail | Backend/controller/otpController.js:123 | When some code has the email, exactly the first such code is removed and the others keep their order; otherwise the codes are unchanged. |
| Records.TtlSweep | Backend/Model/otpModel.js:12-18 | A pass of the TTL monitor at time t keeps exactly the codes whose `expireAt` is not before t; their order and multiplicity are fixed by TtlSweepOne and TtlSweepAppend. |
| Records.TtlSweepOne | Backend/Model/otpModel.js:12-18 | A single code survives a pass at time t exactly when its `expireAt` is not before t. |
| Records.TtlSweepAppend | Backend/Model/otpModel.js:12-18 | The monitor decides code by code: sweeping a concatenation sweeps each part in place, so the survivors are the live codes in their original order, each once. |
| OtpController.OtpCode | Backend/controller/otpController.js:8 | `Math.floor(100000 + Math.random() * 900000)` lies in 100000..999999 for every random draw in [0, 1). |
| OtpController.CodeString | Backend/controller/otpController.js:8-10 | The stored code is six decimal digits that read back as the drawn number. |
| OtpController.SendOtp | Backend/controller/otpController.js:6-11 | Appends one code for a storable email, created now and expiring 15 minutes later. Earlier codes are kept. A refused create is swallowed and writes nothing. Well-formed codes stay well-formed. |
| OtpController.LatestOtpIndex | Backend/controller/otpController.js:105 | `findOne({email}).sort({createdAt: -1})` picks a code for the email with the greatest createdAt. Later codes for it are strictly older. It is absent exactly when the email has no code. |
| OtpController.LatestOtp | Backend/controller/otpController.js:105 | The newest code for the email is a stored code for that email, no code for the email is newer, and it is absent exactly when there is none. |
| OtpController.Promote | Backend/controller/otpController.js:111-129 | Answers 400 "Pending user not found!" exactly when no pending record has the email. Only a 201 writes. A 201 appends a User copied from the first pending record of the email with the new id and the current time, removes exactly that record, removes exactly the first code of the email (none when it has none), and keeps the invariants. |
| OtpController.VerifyOtp | Backend/controller/otpController.js:97-130 | Missing fields answer 400 and write nothing. With both present it takes the newest code for the email: none gives "No OTP request found!", `expireAt < now` gives "OTP expired!", a code that is not the same string gives "Invalid OTP!", each with the store unchanged; otherwise it is the promotion. The store invariants are preserved. |
| OtpController.PromoteSucceedsIffCreate | Backend/controller/otpController.js:111-128 | Once the first pending record of the email is found, the answer is 201 exactly when `User.create` accepts its copy, and 500 "Something went wrong!" exactly when the create is refused. |
| OtpController.VerifySuccessEffect | Backend/controller/otpController.js:111-125 | After a 201 a User copied from a pending record of the email is appended, exactly that pending record is removed, none is left for the email, and exactly the first code of the email is removed. |
| OtpController.LatestSnoc | Backend/controller/otpController.js:105 | A newly appended code becomes the newest for its email exactly when no code for the email is more recent. |
| OtpController.SweepKeepsLiveLatest | Backend/Model/otpModel.js:12-18 | A TTL pass up to now never removes the newest code for an email while that code is live, and it stays the newest. |
| OtpController.SweepKeepsExpiredLatestExpired | Backend/Model/otpModel.js:12-18 | If the newest code has expired, every code for the email that survives a TTL pass has expired too. |
| OtpController.PromoteReplyIgnoresOtps | Backend/controller/otpController.js:111-125 | The promotion's answer depends only on the Users and pending records, not on the stored codes. |
| OtpController.SweepPreservesVerdict | Backend/controller/otpController.js:105-108 | A TTL pass at any time up to now never changes verifyOtp's status, because the handler's own expiry test rejects every code such a pass can remove. |
| OtpController.LiveLatestReachesPromote | Backend/controller/otpController.js:105-111 | Presenting, as a string, the newest code for the email at any time up to its expiry passes every check and reaches the promotion of the pending registration. |
| OtpController.ExpiryIsStrict | Backend/controller/otpController.js:108 | "OTP expired!" is answered exactly when `expireAt < now`. A code presented at its expiry instant is still accepted. |
| OtpController.OnlyLatestConsulted | Backend/controller/otpController.js:105-109 | While the newest code is live, any other code is refused as "Invalid OTP!", even one equal to an older live code. |
| OtpController.NumericCodeNeverAccepted | Backend/controller/otpController.js:109 | A code sent as a JSON number is always refused with 400, because strict `===` against the stored string fails. |
| OtpController.ReplayAddsNoUser | Backend/controller/otpController.js:111-123 | After a successful verification, no later verification for the same email adds a User, whatever the code. |
| OtpController.NewerOfTwoIsLatest | Backend/controller/otpController.js:105 | Of two codes for one email, the one created later (or at the same instant and inserted later) is the newest. |
| OtpController.PromoteOnlyPending | Backend/controller/otpController.js:111-123 | Promoting the only pending registration, when the first stored code is for its email, creates its User with the new id and current time, empties the pending collection and removes exactly that first code. |
| OtpController.AcceptNewerOfTwo | Backend/controller/otpController.js:105-123 | For any two codes of the only pending registration, presenting the newer while it is live answers 201, creates the User, and leaves exactly the accepted code stored: `deleteOne` removes the older one. |
| OtpController.DeleteOneKeepsMatchedCode | Backend/controller/otpController.js:123 | With two codes for an email, accepting the newer one deletes the older one and leaves the accepted code stored. Replaying it is answered "Pending user not found!". |
| AuthController.UpsertPending | Backend/controller/authController.js:33-39 | The first record matching the username or the email gets the new hash and fresh timestamps and keeps its username and email; every other record is unchanged. With no match, a new record is appended. Unique indexes and validators are kept. |
| AuthController.Register | Backend/controller/authController.js:8-49 | Never writes a User. Missing fields answer 400 with nothing written. The first User matching the username or email decides the conflict: "Email already exists!" when its email is the one sent, else "Username already exists!" when its username is. Only a 200 writes. A 200 issues one code for the email, keeps older codes, and leaves a pending record holding the hash of the password. The invariants are preserved. |
| AuthController.Login | Backend/controller/authController.js:52-77 | 401 "Invalid Username!" exactly when the username is absent or no User has it. For the first User with the username, bcrypt rejecting the password gives 401 "Wrong Password!" and accepting it gives 200 with `sign({sub: id, username}, 1 day)`. A 200 always needs such a User and acceptance. |
| AuthController.RegisterSucceedsIff | Backend/controller/authController.js:13-43 | register answers 200 exactly when all three fields are truthy, the password is a string bcrypt can hash, and the first User matching the username or email (if any) equals neither under `===`. |
| AuthController.RegisterConflictIff | Backend/controller/authController.js:18-26 | With string fields, register answers a conflict exactly when some User already has the username or the email. |
| AuthController.ReRegisterKeepsOldEmail | Backend/controller/authController.js:33-39 | Re-registering a pending username under a new email only replaces the password. The old email stays, and verification for the new email can only answer 400. |
| AuthController.VerifyNeedsPending | Backend/controller/otpController.js:111-112 | Without a pending registration for the email, verifyOtp answers 400 whatever the code. |
| AuthController.RegisterKeepsSeparated | Backend/controller/authController.js:18-39 | With string fields, register never creates a pending record that shares a username or email with a User. |
| AuthController.VerifyKeepsSeparated | Backend/controller/otpController.js:111-123 | verifyOtp keeps pending records apart from Users. |
| AuthController.VerifyNeverServerError | Backend/controller/otpController.js:115-119 | Under the invariants and with a fresh id, the User create never violates a unique index, so verifyOtp never answers 500. |
| AuthController.NumericEmailSlipsPastConflictCheck | Backend/controller/authController.js:18-35 | An email sent as the number 5, while a User holds the email "5", still gets a 200. The pending record written clashes with that User, because the stored "5" fails `===` against the number. |
| AuthController.LoginSucceedsIff | Backend/controller/authController.js:56-72 | With unique usernames, login answers 200 exactly when a User has the username and bcrypt accepts the password against its hash. |
| AuthMiddleware.Split | Backend/middleware/authMiddleware.js:9 | `split(' ')` always yields at least one field; what the fields are is stated by SplitFields, JoinSplit and SplitJoin. |
| AuthMiddleware.Join | Backend/middleware/authMiddleware.js:9 | Joining two or more parts puts the separator in; for separator-free parts the separator appears exactly when there are at least two. It is the inverse of Split (JoinSplit, SplitJoin). |
| AuthMiddleware.SplitFields | Backend/middleware/authMiddleware.js:9 | No field of `split(' ')` contains the separator, and there is exactly one field when the text has no separator. |
| AuthMiddleware.JoinSplit | Backend/middleware/authMiddleware.js:9 | Joining the fields of a split with the separator gives back the header. |
| AuthMiddleware.SplitJoin | Backend/middleware/authMiddleware.js:9 | Splitting a join of separator-free fields gives back the fields. |
| AuthMiddleware.TokenOf | Backend/middleware/authMiddleware.js:9 | The token is the second field of the split. It is `undefined` exactly when the header has no space, and it never contains a space. |
| AuthMiddleware.VerifyToken | Backend/middleware/authMiddleware.js:3-25 | A missing or empty header gives exactly one 401 "No token provided". With a header, a run that does not end in `next` ends in 401 "Invalid Token!", and it has two steps exactly when the token is falsy. `next` runs exactly when the token is truthy and verifies, and then it is the only step, with the decoded claims. |
| AuthMiddleware.VerifyTokenWithReturn | Backend/middleware/authMiddleware.js:10-12 | Corrected guard: every request gets exactly one outcome; with a header it is 401 "Invalid Token!" unless `next` runs, and `next` runs exactly when the token is truthy and verifies. |
| AuthMiddleware.TokenIsSecondField | Backend/middleware/authMiddleware.js:9 | For any header built from space-free words, the token is the second word. |
| AuthMiddleware.BearerTokenRead | Backend/middleware/authMiddleware.js:9 | `Bearer <token>` yields the token. |
| AuthMiddleware.SchemeWordIgnored | Backend/middleware/authMiddleware.js:9 | Any first word gives the same outcome as `Bearer`: the scheme is never checked. |
| AuthMiddleware.OnlyAuthorizationRead | Backend/middleware/authMiddleware.js:5 | The outcome depends only on the `authorization` header. |
| AuthMiddleware.FalsyTokenAnsweredTwice | Backend/middleware/authMiddleware.js:10-17 | A present header with a falsy token attempts two 401 "Invalid Token!" responses. |
| AuthMiddleware.BareSchemeAnsweredTwice | Backend/middleware/authMiddleware.js:10-17 | The header `Bearer` alone attempts two 401 responses. |
| AuthMiddleware.WithReturnAgreesOtherwise | Backend/middleware/authMiddleware.js:10-12 | The corrected guard differs from the original exactly on headers whose token is falsy. |
| SoilPrompt.MakePrompt | Backend/AI/soilFertilizerPrompt.js:1-46 | Has no contract of its own; what the prompt is follows from ConstantFrame, NotesLine, NotesLineIffTruthy, FalsyMessagesAgree, LocalityVerbatim, CropVerbatim, StageVerbatim, SoilVerbatim, NotesVerbatim and FieldsNotRecoverable below. Together the frame and the verbatim lemmas fix every character of the prompt. |
| SoilPrompt.NotesLine | Backend/AI/soilFertilizerPrompt.js:17 | The notes line is non-empty exactly when `message` is truthy, and it is then the label followed by the message. |
| SoilPrompt.ConstantFrame | Backend/AI/soilFertilizerPrompt.js:2-12 | Whatever the arguments, the prompt opens with the fixed instructions and ends with the fixed rules and output format, including the `speech_index` rule. |
| SoilPrompt.NotesLineIffTruthy | Backend/AI/soilFertilizerPrompt.js:17 | The prompt's length is the fixed text plus the four fields, plus the notes line exactly when `message` is truthy. |
| SoilPrompt.FalsyMessagesAgree | Backend/AI/soilFertilizerPrompt.js:17 | All falsy messages (absent, empty, 0) give the same prompt. |
| SoilPrompt.LocalityVerbatim | Backend/AI/soilFertilizerPrompt.js:13 | The locality appears verbatim right after the instructions. |
| SoilPrompt.CropVerbatim | Backend/AI/soilFertilizerPrompt.js:14 | The crop type appears verbatim right after its label. |
| SoilPrompt.StageVerbatim | Backend/AI/soilFertilizerPrompt.js:15 | The growth stage appears verbatim right after its label. |
| SoilPrompt.SoilVerbatim | Backend/AI/soilFertilizerPrompt.js:16 | The soil type appears verbatim right after its label. |
| SoilPrompt.NotesVerbatim | Backend/AI/soilFertilizerPrompt.js:16-18 | Right after the soil type come the soil examples and the notes line, verbatim, followed by nothing but the closing rules. |
| SoilPrompt.FieldsNotRecoverable | Backend/AI/soilFertilizerPrompt.js:13-14 | Fields are not escaped: a locality containing the crop label gives the same prompt as a different split into locality and crop type. |
| ExtractJson.Span | Backend/AI/extractJson.js:4 | The span is the match of `/\{[\s\S]*\}/`: the leftmost start, then the longest end. It is absent exactly when no `{…}` match exists. |
| ExtractJson.ScanSpan | Backend/AI/extractJson.js:4 | A forward scan for the first `{` and a backward scan for the last `}` find the same span as the match. |
| ExtractJson.Extract | Backend/AI/extractJson.js:1-15 | The result is null when the reply is not a string or has no match; otherwise it is exactly the parse of the text from the first `{` to the last `}`. |
| ExtractJson.SpanIdempotent | Backend/AI/extractJson.js:4 | Matching again inside the matched span selects all of it. |
| ExtractJson.SurroundingsIgnored | Backend/AI/extractJson.js:4-10 | Prose around a braced block (no `{` before, no `}` after) does not change the result. |
| ExtractJson.TwoObjectsReadAsOneSpan | Backend/AI/extractJson.js:4-10 | Two objects in one reply are parsed as a single span from the first `{` to the last `}`, never as the first object alone. |
| ExtractJson.EmbeddedObjectRoundTrip | Backend/AI/extractJson.js:4-10 | An object serialised into brace-free prose is extracted back unchanged. |
| AiController.Fields | Backend/controller/aiController.js:9 | An absent body destructures as `{}`: every field is falsy. |
| AiController.SentCount | Backend/controller/aiController.js:12-19 | The number of responses a trace attempts is at most its length. It is zero exactly when the trace has no response. |
| AiController.Pipeline | Backend/controller/aiController.js:15-22 | The model is asked with the prompt first. A 200 is sent exactly when the reply is text from which an object is extracted. Before it comes the speech call on `public/output.mp3`, and it carries the object unchanged with the fixed audio URL. Otherwise the error is only logged. |
| AiController.Soil | Backend/controller/aiController.js:7-23 | The trace starts with 400 "Enter all Fields" exactly when a field, `message` included, is falsy. The model is asked in every case. At most two responses are attempted, and at most one for a complete body. |
| AiController.SoilWithReturn | Backend/controller/aiController.js:11-13 | Corrected handler: an incomplete body gets only the 400, and no run attempts more than one response. |
| AiController.WithReturnAgreesOnCompleteBodies | Backend/controller/aiController.js:11-19 | The corrected and original handlers agree exactly on complete bodies. |
| AiController.IncompleteBodyAnsweredTwice | Backend/controller/aiController.js:11-19 | An incomplete body whose prompt still gets an extractable reply attempts two responses: the 400 and then the 200. |
| AiController.NoBodyAnsweredTwice | Backend/controller/aiController.js:9-19 | A request with no body and a model replying `{}` attempts two responses. |
| AiController.SuccessIff | Backend/controller/aiController.js:15-19 | The run ends in a 200 exactly when the reply yields an object. That object is the response's data unchanged, preceded by the speech call with its `speech_index` and the fixed path, preceded by the model call with the body's prompt. |
| AiController.FailureLoggedWithoutResponse | Backend/controller/aiController.js:16-22 | When the model throws or extraction yields null, the run ends in a logged error. No response is sent beyond the validation 400. |
| Session.FreshRegistration | Backend/controller/authController.js:13-43 | Registering an unused username and email appends one pending record holding the hash and one code for the email. |
| Session.FreshConfirmation | Backend/controller/otpController.js:101-125 | Presenting the newest code before it expires turns the single pending record for the email into a User. |
| Session.FreshLogIn | Backend/controller/authController.js:56-72 | Logging in as a User whose username is unique, with a password bcrypt accepts, returns the one-day token for that User. |
| Session.SignUpThenLogIn | Backend/controller/authController.js:8-77 | A fresh sign-up confirmed in time gives 200, then 201, then a login token signed for the new User. |
| Session.SignedTokenPassesGuard | Backend/middleware/authMiddleware.js:9-19 | A signed login token sent as `Bearer <token>` passes the guard with the signed claims, given that jwt verifies what it signed. |
| Session.SignUpLogInAndPass | Backend/middleware/authMiddleware.js:3-25 | The token from login after a confirmed sign-up lets the next request through with the new User's id and username. |

## Left out

- Mail transport and the HTML mail body: `sendMail` is a no-op. In the code a mail failure is swallowed after `Otp.create` has already stored the code, so the code stays; the model's stored state is the same.
- bcrypt, jsonwebtoken, Gemini and the ElevenLabs speech service are parameters. Speech-to-text is not called by the modelled handlers.
  - The salt and work factor of `bcrypt.hash` are not modelled.
  - Token expiry is inside `verify`.
  - The written audio file is represented by a `Spoke` event.
- `JSON.parse` is a parameter `string -> Option<J>`; JSON text itself is not modelled.
- `Math.random()` is a real in [0, 1). Floating-point rounding of `100000 + r * 900000` is not modelled.
- Request fields are absent, strings, or integers. Booleans, objects and arrays in a JSON body, and fractional numbers, are not modelled.
- Express's behaviour on a second response after headers are sent (`ERR_HTTP_HEADERS_SENT`) is not modelled. The model stops at the attempt: both responses appear in the trace.
- Concurrency is not modelled: interleaved requests, races between the unique indexes, and overwriting of the shared `public/output.mp3`.
- Database outages and other thrown I/O errors are not modelled, except where a handler's own input makes a library throw:
  - bcrypt given a non-string gives 500;
  - `login` with no body gives 500;
  - a unique-index violation in `verifyOtp` gives 500.
- Node lower-cases header names, so `req.headers['authorization']` sees every spelling the client sends. The model's header map already holds lower-cased names.
- The server and router wiring are not part of this model: `App.js`, `apiRoutes.js` and `dbConnect.js`. `App.js` imports `verifyToken` but never mounts it, and the AI routes file is not part of this model. Whether the advisory endpoint is guarded therefore cannot be settled.
- The React front end is not part of this model.
- OtpController.LatestOtpIndex: among codes with equal createdAt the later insertion wins. The store leaves that tie unspecified.
- AuthController.Login: a request without a `username` is taken to match no User. The model does not follow the driver's handling of an `undefined` filter value.
- Records.CreateUser: a create succeeds only with a fresh ObjectId. The ObjectId is the parameter `newId`, and the model does not generate one.
- `findOne` and `deleteOne` without a sort are answered by the first match in insertion order, although MongoDB promises no order for them. This choice decides which pending record gets the new hash in `register` when the username and the email match different records, which User decides the conflict message, and which code `verifyOtp` deletes.
- JSON `null` request fields are not modelled. They are falsy like `undefined`, but a template prints them as "null", not "undefined".
- OtpController.OtpWellFormed: the code's expiry is computed from `Date.now()` (Backend/controller/otpController.js:9) and its `createdAt` from the timestamp Mongoose takes at create (Backend/Model/otpModel.js:20). The model reads one clock value `now` for both, so `expireAt == createdAt + 15 minutes` holds exactly; SweepKeepsExpiredLatestExpired rests on that equality.
- AuthController.UpsertPending: `register`'s `updateOne` asks for `createdAt: new Date()`, but with timestamps on, Mongoose treats `createdAt` as immutable and strips it from the update. The model writes it anyway, so on re-registration its `createdAt` departs from the stored one; nothing in the handlers reads a pending record's `createdAt`.

## Findings

| source | as written | input that shows it | evidently intended | confidence | as-written member | corrected member |
|---|---|---|---|---|---|---|
| Backend/controller/aiController.js:11-13 | The 400 "Enter all Fields" has no `return` after it, so the prompt, model call and 200 still run. | A request with no body while the model replies `{}`: a 400 and then a 200 are attempted. | Stop after the 400. | high (not executed) | AiController.Soil, AiController.NoBodyAnsweredTwice | AiController.SoilWithReturn, AiController.WithReturnAgreesOnCompleteBodies |
| Backend/middleware/authMiddleware.js:10-12 | The 401 "Invalid Token!" for a falsy token has no `return` after it, so `jwt.verify` still runs, fails, and answers 401 again. | The header `authorization: Bearer` (no token): two 401 responses are attempted. | Stop after the first 401. | high (not executed) | AuthMiddleware.VerifyToken, AuthMiddleware.BareSchemeAnsweredTwice | AuthMiddleware.VerifyTokenWithReturn, AuthMiddleware.WithReturnAgreesOtherwise |

=== FILE: ai_controller.dfy ===
/** `soil` (aiController.js): reads five fields from the request body,
    answers 400 when one is falsy, then builds the prompt, asks the model,
    extracts the JSON object from its reply, has the `speech_index` spoken
    to `public/output.mp3` and answers 200 with the object. The model call,
    `JSON.parse`, the property read and the speech service are parameters.
    A handler run is a trace of the observable steps it attempts, so that a
    second response after the first shows up as two `Sent` events. */
module AiController {
  import opened Common
  import opened JsValues
  import opened SoilPrompt
  import opened ExtractJson

  const MsgEnterAll := "Enter all Fields"
  const MsgSuccess := "Success!"
  /** The file the speech service always writes. */
  const AudioPath := "public/output.mp3"
  /** The audio URL every success body carries. */
  const AudioUrl := "http://localhost:3000/output.mp3"

  /** The destructured `req.body || {}`. */
  datatype SoilBody = SoilBody(locality: Field, cropType: Field, growthStage: Field, soilType: Field, message: Field)

  /** What the model call settles with: it throws, or resolves to
      `response.text`, which may be undefined (`None`). */
  datatype ModelReply = ModelThrew | ModelText(text: Option<string>)

  datatype AiBody<J> =
    | Notice(message: string)
    | Success(message: string, data: J, audio: string)

  /** One observable step of a handler run. `LoggedError` is the catch block
      printing the error; nothing is sent after it. */
  datatype Event<J, S> =
    | Sent(status: nat, body: AiBody<J>)
    | AskedModel(prompt: string)
    | Spoke(text: S, path: string)
    | LoggedError

  /** An absent body destructures as `{}`: every field undefined. */
  function Fields(body: Option<SoilBody>): (b: SoilBody)
    ensures body.None? ==> !Truthy(b.locality) && !Truthy(b.cropType) && !Truthy(b.growthStage)
                           && !Truthy(b.soilType) && !Truthy(b.message)
    ensures body.Some? ==> b == body.value
  {
    match body
    case None => SoilBody(Missing, Missing, Missing, Missing, Missing)
    case Some(b) => b
  }

  /** The validation test: every one of the five fields, `message` included, is truthy. */
  predicate Complete(b: SoilBody) {
    Truthy(b.locality) && Truthy(b.cropType) && Truthy(b.growthStage) && Truthy(b.soilType) && Truthy(b.message)
  }

  function PromptOf(b: SoilBody): string {
    MakePrompt(b.locality, b.cropType, b.growthStage, b.soilType, b.message)
  }

  /** The number of responses a trace attempts. */
  function SentCount<J, S>(t: seq<Event<J, S>>): (n: nat)
    ensures n <= |t|
    ensures n == 0 <==> forall k :: 0 <= k < |t| ==> !t[k].Sent?
  {
    if |t| == 0 then 0
    else SentCount(t[..|t| - 1]) + (if t[|t| - 1].Sent? then 1 else 0)
  }

  /** The steps after validation: prompt, model call, extraction, speech, 200.
      Extraction yielding null makes `responseJson.speech_index` throw. */
  function Pipeline<J, S>(prompt: string, model: string -> ModelReply, parse: string -> Option<J>,
                          speechIndex: J -> S): (t: seq<Event<J, S>>)
    ensures |t| >= 2 && t[0] == AskedModel(prompt)
    ensures SentCount(t) <= 1
    ensures t[|t| - 1].Sent? <==> model(prompt).ModelText? && Extract(model(prompt).text, parse).Some?
    ensures t[|t| - 1].Sent? ==>
      var data := Extract(model(prompt).text, parse).value;
      t == [AskedModel(prompt), Spoke(speechIndex(data), AudioPath),
            Sent(200, Success(MsgSuccess, data, AudioUrl))]
    ensures !t[|t| - 1].Sent? ==> t[|t| - 1] == LoggedError && SentCount(t) == 0
  {
    match model(prompt)
    case ModelThrew => [AskedModel(prompt), LoggedError]
    case ModelText(text) =>
      match Extract(text, parse)
      case None => [AskedModel(prompt), LoggedError]
      case Some(data) =>
        [AskedModel(prompt), Spoke(speechIndex(data), AudioPath), Sent(200, Success(MsgSuccess, data, AudioUrl))]
  }

  /** `soil` as written: the 400 has no `return` after it, so the pipeline
      runs whatever the validation decided. */
  function Soil<J, S>(body: Option<SoilBody>, model: string -> ModelReply, parse: string -> Option<J>,
                      speechIndex: J -> S): (t: seq<Event<J, S>>)
    ensures !Complete(Fields(body)) <==> |t| > 0 && t[0] == Sent(400, Notice(MsgEnterAll))
    ensures AskedModel(PromptOf(Fields(body))) in t
    ensures SentCount(t) <= 2
    ensures Complete(Fields(body)) ==> SentCount(t) <= 1
  {
    var b := Fields(body);
    var head := if Complete(b) then [] else [Sent(400, Notice(MsgEnterAll))];
    var rest := Pipeline(PromptOf(b), model, parse, speechIndex);
    SentCountAppend(head, rest);
    head + rest
  }

  /** `soil` with `return` after the 400: an incomplete body is answered once
      and nothing else happens. */
  function SoilWithReturn<J, S>(body: Option<SoilBody>, model: string -> ModelReply, parse: string -> Option<J>,
                                speechIndex: J -> S): (t: seq<Event<J, S>>)
    ensures !Complete(Fields(body)) ==> t == [Sent(400, Notice(MsgEnterAll))]
    ensures SentCount(t) <= 1
  {
    var b := Fields(body);
    if Complete(b) then Pipeline(PromptOf(b), model, parse, speechIndex)
    else [Sent(400, Notice(MsgEnterAll))]
  }

  lemma SentCountAppend<J, S>(a: seq<Event<J, S>>, b: seq<Event<J, S>>)
    ensures SentCount(a + b) == SentCount(a) + SentCount(b)
    decreases |b|
  {
    if |b| == 0 {
      assert a + b == a;
    } else {
      assert (a + b)[..|a + b| - 1] == a + b[..|b| - 1];
      SentCountAppend(a, b[..|b| - 1]);
    }
  }

  /** With a complete body the two versions behave identically; they differ
      only on incomplete bodies, where the corrected one stops after the 400. */
  lemma WithReturnAgreesOnCompleteBodies<J, S>(body: Option<SoilBody>, model: string -> ModelReply,
                                               parse: string -> Option<J>, speechIndex: J -> S)
    ensures Complete(Fields(body)) <==>
      SoilWithReturn(body, model, parse, speechIndex) == Soil(body, model, parse, speechIndex)
  {
    var b := Fields(body);
    if !Complete(b) {
      var t := Soil(body, model, parse, speechIndex);
      assert t[1..] == Pipeline(PromptOf(b), model, parse, speechIndex);
      assert |t| >= 3;
    }
  }

  /** As written, an incomplete body whose prompt still gets a reply holding
      a parseable object attempts two responses: the 400 and then the 200. */
  lemma IncompleteBodyAnsweredTwice<J, S>(body: Option<SoilBody>, model: string -> ModelReply,
                                          parse: string -> Option<J>, speechIndex: J -> S)
    requires !Complete(Fields(body))
    requires model(PromptOf(Fields(body))).ModelText?
    requires Extract(model(PromptOf(Fields(body))).text, parse).Some?
    ensures var t := Soil(body, model, parse, speechIndex);
      && SentCount(t) == 2
      && t[0] == Sent(400, Notice(MsgEnterAll))
      && t[|t| - 1] == Sent(200, Success(MsgSuccess, Extract(model(PromptOf(Fields(body))).text, parse).value, AudioUrl))
  {
    var b := Fields(body);
    var rest := Pipeline(PromptOf(b), model, parse, speechIndex);
    SentCountAppend([Sent(400, Notice(MsgEnterAll))], rest);
  }

  /** A concrete instance: no body at all, and a model that replies `{}`. */
  lemma NoBodyAnsweredTwice()
    ensures SentCount(Soil(None, (p: string) => ModelText(Some("{}")), (s: string) => Some(s), (j: string) => j)) == 2
  {
    var model := (p: string) => ModelText(Some("{}"));
    var parse := (s: string) => Some(s);
    assert FirstMatch("{}", (c: char) => c == '{') == Some(0);
    assert LastMatch("{}", (c: char) => c == '}') == Some(1);
    assert Span("{}") == Some(Range(0, 2));
    assert "{}"[0..2] == "{}";
    assert Extract(Some("{}"), parse) == Some("{}");
    var prompt := PromptOf(Fields(None));
    assert model(prompt) == ModelText(Some("{}"));
    IncompleteBodyAnsweredTwice(None, model, parse, (j: string) => j);
  }

  /** A 200 is sent if and only if the model replied with text from which an
      object was extracted; that object is the `data` of the body unchanged,
      the speech service was given its `speech_index` and the fixed output
      path first, and the model was asked with the prompt built from the body. */
  lemma SuccessIff<J, S>(body: Option<SoilBody>, model: string -> ModelReply, parse: string -> Option<J>,
                         speechIndex: J -> S)
    ensures var t := Soil(body, model, parse, speechIndex);
      var reply := model(PromptOf(Fields(body)));
      && (t[|t| - 1].Sent? <==> reply.ModelText? && Extract(reply.text, parse).Some?)
      && (t[|t| - 1].Sent? ==>
            var data := Extract(reply.text, parse).value;
            && t[|t| - 1] == Sent(200, Success(MsgSuccess, data, AudioUrl))
            && t[|t| - 2] == Spoke(speechIndex(data), AudioPath)
            && t[|t| - 3] == AskedModel(PromptOf(Fields(body))))
  {
    var b := Fields(body);
    var head: seq<Event<J, S>> := if Complete(b) then [] else [Sent(400, Notice(MsgEnterAll))];
    var rest := Pipeline(PromptOf(b), model, parse, speechIndex);
    assert Soil(body, model, parse, speechIndex) == head + rest;
  }

  /** When the model throws, or its reply holds no object, the error is only
      logged: no 200 is ever sent, and an incomplete body gets just the 400. */
  lemma FailureLoggedWithoutResponse<J, S>(body: Option<SoilBody>, model: string -> ModelReply,
                                           parse: string -> Option<J>, speechIndex: J -> S)
    requires model(PromptOf(Fields(body))).ModelThrew? || Extract(model(PromptOf(Fields(body))).text, parse).None?
    ensures var t := Soil(body, model, parse, speechIndex);
      && t[|t| - 1] == LoggedError
      && SentCount(t) == (if Complete(Fields(body)) then 0 else 1)
  {
    var b := Fields(body);
    var head: seq<Event<J, S>> := if Complete(b) then [] else [Sent(400, Notice(MsgEnterAll))];
    var rest := Pipeline(PromptOf(b), model, parse, speechIndex);
    SentCountAppend(head, rest);
  }
}

=== FILE: auth_controller.dfy ===
/** Registration and login (authController.js). `register` validates, refuses
    an identity already confirmed as a User, upserts the pending registration
    with the bcrypt hash and issues a code; `login` checks the password hash
    and signs a token. bcrypt (`hash`, `compare`) and `jwt.sign` (`sign`) are
    uninterpreted functions passed in; the clock and `Math.random()` are
    parameters. */
module AuthController {
  import opened Common
  import opened JsValues
  import opened Records
  import opened Http
  import opened OtpController

  const MsgAllRequired := "All fields are required"
  const MsgEmailExists := "Email already exists!"
  const MsgUsernameExists := "Username already exists!"
  const MsgOtpSent := "OTP sent to email. Verify within 15 minutes!"
  const MsgRegisterError := "Something went wrong"
  const MsgBadUsername := "Invalid Username!"
  const MsgWrongPassword := "Wrong Password!"

  /** `expiresIn: '1d'`. */
  const TokenLifetimeSeconds: nat := 24 * 60 * 60

  /** The token payload: exactly the user's id string and username, never the hash. */
  datatype Claims = Claims(sub: string, username: string)

  /** Position `k` holds the first pending record whose username or email is the given one. */
  predicate FirstPendingMatch(ps: seq<PendingRecord>, k: int, username: string, email: string) {
    && 0 <= k < |ps| && (ps[k].username == username || ps[k].email == email)
    && forall i :: 0 <= i < k ==> ps[i].username != username && ps[i].email != email
  }

  /** Position `k` holds the first User whose username or email is the given one. */
  predicate FirstUserMatch(us: seq<UserRecord>, k: int, username: string, email: string) {
    && 0 <= k < |us| && (us[k].username == username || us[k].email == email)
    && forall i :: 0 <= i < k ==> us[i].username != username && us[i].email != email
  }

  /** Position `k` holds the first User with the username. */
  predicate FirstNamed(us: seq<UserRecord>, k: int, username: string) {
    0 <= k < |us| && us[k].username == username && forall i :: 0 <= i < k ==> us[i].username != username
  }

  /** No pending registration shares a username or an email with a User. */
  ghost predicate Separated(s: Store) {
    forall i, j :: 0 <= i < |s.users| && 0 <= j < |s.pending| ==>
      s.users[i].username != s.pending[j].username && s.users[i].email != s.pending[j].email
  }

  /** The pending write of `register`: when a pending record matches the
      username or the email, only its password and timestamps are replaced
      (its username and email stay as they were); otherwise a new record is
      created. */
  function UpsertPending(ps: seq<PendingRecord>, username: string, email: string, hashed: string, now: int)
    : (r: Option<seq<PendingRecord>>)
    ensures RequiredString(username) && RequiredString(email) ==> r.Some?
    ensures r.Some? ==>
      exists j :: 0 <= j < |r.value| && r.value[j].password == Some(hashed)
        && (r.value[j].username == username || r.value[j].email == email)
    // an existing match keeps every username and email; only the new hash is written
    ensures (exists j :: 0 <= j < |ps| && (ps[j].username == username || ps[j].email == email)) ==>
      && r.Some? && |r.value| == |ps|
      && (forall k :: 0 <= k < |ps| ==> r.value[k].username == ps[k].username && r.value[k].email == ps[k].email)
      && (forall k :: 0 <= k < |ps| && r.value[k] != ps[k] ==> r.value[k].password == Some(hashed))
    ensures (forall j :: 0 <= j < |ps| ==> ps[j].username != username && ps[j].email != email) && r.Some? ==>
      r.value == ps + [PendingRecord(username, email, Some(hashed), now, now)]
    ensures r.Some? && PendingUnique(ps) ==> PendingUnique(r.value)
    ensures r.Some? && PendingRequired(ps) ==> PendingRequired(r.value)
    // precisely: the first match gets the new hash and timestamps, and every other record is kept as it was
    ensures forall j :: FirstPendingMatch(ps, j, username, email) ==>
      && r.Some? && |r.value| == |ps|
      && r.value[j] == ps[j].(password := Some(hashed), createdAt := now, updatedAt := now)
      && forall k :: 0 <= k < |ps| && k != j ==> r.value[k] == ps[k]
  {
    match FirstMatch(ps, (x: PendingRecord) => x.username == username || x.email == email)
    case None => CreatePending(ps, PendingRecord(username, email, Some(hashed), now, now))
    case Some(j) =>
      assert forall i :: FirstPendingMatch(ps, i, username, email) ==> i == j;
      var updated := ps[j := ps[j].(password := Some(hashed), createdAt := now, updatedAt := now)];
      RehashKeepsKeys(ps, j, hashed, now);
      assert updated[j].password == Some(hashed) && (updated[j].username == username || updated[j].email == email);
      Some(updated)
  }

  /** Rewriting one pending record's password and timestamps keeps every
      username and email, so the unique indexes and validators still hold. */
  lemma RehashKeepsKeys(ps: seq<PendingRecord>, j: nat, hashed: string, now: int)
    requires j < |ps|
    ensures var updated := ps[j := ps[j].(password := Some(hashed), createdAt := now, updatedAt := now)];
      && (forall k :: 0 <= k < |ps| ==> updated[k].username == ps[k].username && updated[k].email == ps[k].email)
      && (PendingUnique(ps) ==> PendingUnique(updated))
      && (PendingRequired(ps) ==> PendingRequired(updated))
  {
    var updated := ps[j := ps[j].(password := Some(hashed), createdAt := now, updatedAt := now)];
    assert forall a, b :: 0 <= a < b < |ps| ==>
      updated[a].username == ps[a].username && updated[b].username == ps[b].username &&
      updated[a].email == ps[a].email && updated[b].email == ps[b].email;
  }

  /** `register`: validation, then the conflict check against confirmed
      Users (the email message wins when the first User found has the request
      email), then bcrypt, the pending upsert and `sendOtp` for the request
      email. It never writes a User. */
  function Register(s: Store, username: Field, password: Field, email: Field,
                    now: int, rnd: real, hash: string -> string): (r: Outcome)
    requires 0.0 <= rnd < 1.0
    ensures r.store.users == s.users
    ensures r.reply.status == 200 || r.reply.status == 400 || r.reply.status == 500
    ensures r.reply.status != 200 ==> r.store == s
    ensures !Truthy(username) || !Truthy(email) || !Truthy(password) ==>
      r == Outcome(Reply(400, Message(MsgAllRequired)), s)
    // success echoes the request email and issues one code for it, keeping older codes
    ensures r.reply.status == 200 ==>
      && r.reply.body == MessageWithEmail(MsgOtpSent, email)
      && |r.store.otps| == |s.otps| + 1 && r.store.otps[..|s.otps|] == s.otps
      && IssuedFor(r.store.otps[|s.otps|], CastString(email).value, now)
    // and leaves a pending record holding the hash, never the raw password
    ensures r.reply.status == 200 ==>
      && password.Text?
      && exists j :: 0 <= j < |r.store.pending| && r.store.pending[j].password == Some(hash(password.s))
           && (r.store.pending[j].username == CastString(username).value
               || r.store.pending[j].email == CastString(email).value)
    // the first User matching either field decides the conflict: its email is compared first
    ensures Truthy(username) && Truthy(email) && Truthy(password) ==>
      forall k :: FirstUserMatch(s.users, k, CastString(username).value, CastString(email).value) ==>
        && (StrictEqualsString(email, s.users[k].email) ==> r == Outcome(Reply(400, Message(MsgEmailExists)), s))
        && (!StrictEqualsString(email, s.users[k].email) && StrictEqualsString(username, s.users[k].username) ==>
              r == Outcome(Reply(400, Message(MsgUsernameExists)), s))
    ensures Valid(s) ==> Valid(r.store)
  {
    if !Truthy(username) || !Truthy(email) || !Truthy(password) then
      Outcome(Reply(400, Message(MsgAllRequired)), s)
    else
      var u := CastString(username).value;
      var e := CastString(email).value;
      var existing := FirstMatch(s.users, (x: UserRecord) => x.username == u || x.email == e);
      if existing.Some? && StrictEqualsString(email, s.users[existing.value].email) then
        Outcome(Reply(400, Message(MsgEmailExists)), s)
      else if existing.Some? && StrictEqualsString(username, s.users[existing.value].username) then
        Outcome(Reply(400, Message(MsgUsernameExists)), s)
      else if !password.Text? then
        // bcrypt.hash rejects data that is not a string; the catch answers 500
        Outcome(Reply(500, Message(MsgRegisterError)), s)
      else
        match UpsertPending(s.pending, u, e, hash(password.s), now)
        case None => Outcome(Reply(500, Message(MsgRegisterError)), s)
        case Some(pending) =>
          Outcome(Reply(200, MessageWithEmail(MsgOtpSent, email)),
                  Store(s.users, pending, SendOtp(s.otps, email, now, rnd)))
  }

  /** The body of a login request; `None` when Express parsed no body, so the
      destructuring throws. */
  datatype LoginBody = LoginBody(username: Field, password: Field)

  /** `login`: look the username up, compare the password with the stored
      hash, sign `{sub, username}` for one day. Returns no store: login
      writes nothing. A request without a username is taken to match no User. */
  function Login(users: seq<UserRecord>, body: Option<LoginBody>,
                 compare: (string, string) -> bool, sign: (Claims, nat) -> string): (r: Reply)
    ensures r.status == 200 || r.status == 401 || r.status == 500
    ensures body.Some? ==>
      (r == Reply(401, Message(MsgBadUsername)) <==>
        (CastString(body.value.username).None? ||
         forall k :: 0 <= k < |users| ==> users[k].username != CastString(body.value.username).value))
    ensures r.status == 200 ==>
      && body.Some? && body.value.password.Text? && CastString(body.value.username).Some?
      && exists k :: 0 <= k < |users| && users[k].username == CastString(body.value.username).value
           && users[k].password.Some? && compare(body.value.password.s, users[k].password.value)
           && r.body == TokenBody(sign(Claims(users[k].id, users[k].username), TokenLifetimeSeconds))
    // once the first User with the username is found, bcrypt decides between 401 and the token
    ensures body.Some? && body.value.password.Text? && CastString(body.value.username).Some? ==>
      forall k :: FirstNamed(users, k, CastString(body.value.username).value) && users[k].password.Some? ==>
        && (!compare(body.value.password.s, users[k].password.value) ==> r == Reply(401, Message(MsgWrongPassword)))
        && (compare(body.value.password.s, users[k].password.value) ==>
              r == Reply(200, TokenBody(sign(Claims(users[k].id, users[k].username), TokenLifetimeSeconds))))
  {
    match body
    case None => Reply(500, Message(MsgServerError))
    case Some(LoginBody(username, password)) =>
      var found :=
        match CastString(username)
        case None => None
        case Some(u) => FirstMatch(users, (x: UserRecord) => x.username == u);
      if found.None? then Reply(401, Message(MsgBadUsername))
      else
        var user := users[found.value];
        // bcrypt.compare throws unless both the password and the stored hash are strings
        if !password.Text? || user.password.None? then Reply(500, Message(MsgServerError))
        else if !compare(password.s, user.password.value) then Reply(401, Message(MsgWrongPassword))
        else Reply(200, TokenBody(sign(Claims(user.id, user.username), TokenLifetimeSeconds)))
  }

  /** For string fields, register refuses with one of the two conflict
      messages exactly when some User already has the username or the email. */
  lemma RegisterConflictIff(s: Store, username: string, password: Field, email: string,
                            now: int, rnd: real, hash: string -> string)
    requires |username| > 0 && |email| > 0 && Truthy(password) && 0.0 <= rnd < 1.0
    ensures var r := Register(s, Text(username), password, Text(email), now, rnd, hash);
      (r.reply == Reply(400, Message(MsgEmailExists)) || r.reply == Reply(400, Message(MsgUsernameExists)))
      <==> exists k :: 0 <= k < |s.users| && (s.users[k].username == username || s.users[k].email == email)
  {
    var r := Register(s, Text(username), password, Text(email), now, rnd, hash);
    var existing := FirstMatch(s.users, (x: UserRecord) => x.username == username || x.email == email);
    if existing.Some? {
      var k := existing.value;
      assert s.users[k].username == username || s.users[k].email == email;
    } else {
      assert MsgAllRequired[0] == 'A' && MsgEmailExists[0] == 'E' && MsgUsernameExists[0] == 'U';
    }
  }

  /** Re-registering an unconfirmed username under a new email only refreshes
      the password of the old pending record: it keeps the old email, no
      pending record carries the new one, and verifying any code for the new
      email can only answer 400. */
  lemma ReRegisterKeepsOldEmail(s: Store, j: nat, username: string, password: string, email: string,
                                now: int, rnd: real, hash: string -> string,
                                code: Field, later: int, newId: string)
    requires PendingUnique(s.pending) && 0.0 <= rnd < 1.0
    requires |username| > 0 && |email| > 0 && |password| > 0
    requires j < |s.pending| && s.pending[j].username == username && s.pending[j].email != email
    requires forall k :: 0 <= k < |s.pending| ==> s.pending[k].email != email
    requires forall k :: 0 <= k < |s.users| ==> s.users[k].username != username && s.users[k].email != email
    ensures var r := Register(s, Text(username), Text(password), Text(email), now, rnd, hash);
      && r.reply.status == 200
      && |r.store.pending| == |s.pending|
      && r.store.pending[j].email == s.pending[j].email
      && r.store.pending[j].password == Some(hash(password))
      && VerifyOtp(r.store, code, Text(email), later, newId).reply.status == 400
  {
    var m := FirstMatch(s.pending, (x: PendingRecord) => x.username == username || x.email == email);
    assert m == Some(j) by {
      assert m.Some?;
      assert s.pending[m.value].username == username;
    }
    var pending := s.pending[j := s.pending[j].(password := Some(hash(password)), createdAt := now, updatedAt := now)];
    ReRegisterOutcome(s, m, username, password, email, now, rnd, hash);
    var r := Register(s, Text(username), Text(password), Text(email), now, rnd, hash);
    assert r.store.pending == pending;
    VerifyNeedsPending(r.store, code, email, later, newId);
  }

  /** register answers 200 exactly when every field is truthy, the password
      is a string bcrypt can hash, and the first User matching the username or
      the email (if any) equals neither of them under `===`. */
  lemma RegisterSucceedsIff(s: Store, username: Field, password: Field, email: Field,
                            now: int, rnd: real, hash: string -> string)
    requires 0.0 <= rnd < 1.0
    ensures Register(s, username, password, email, now, rnd, hash).reply.status == 200 <==>
      && Truthy(username) && Truthy(email) && password.Text? && |password.s| > 0
      && forall k :: FirstUserMatch(s.users, k, CastString(username).value, CastString(email).value) ==>
           !StrictEqualsString(email, s.users[k].email) && !StrictEqualsString(username, s.users[k].username)
  {
    if Truthy(username) && Truthy(email) && Truthy(password) {
      var u := CastString(username).value;
      var e := CastString(email).value;
      var existing := FirstMatch(s.users, (x: UserRecord) => x.username == u || x.email == e);
      if existing.Some? {
        assert FirstUserMatch(s.users, existing.value, u, e);
        assert forall k :: FirstUserMatch(s.users, k, u, e) ==> k == existing.value;
      } else {
        assert forall k :: !FirstUserMatch(s.users, k, u, e);
      }
    }
  }

  /** The store register leaves when no User clashes and pending record `m`
      is the first to match. */
  lemma ReRegisterOutcome(s: Store, m: Option<nat>, username: string, password: string, email: string,
                          now: int, rnd: real, hash: string -> string)
    requires 0.0 <= rnd < 1.0 && |username| > 0 && |email| > 0 && |password| > 0
    requires m == FirstMatch(s.pending, (x: PendingRecord) => x.username == username || x.email == email)
    requires m.Some?
    requires forall k :: 0 <= k < |s.users| ==> s.users[k].username != username && s.users[k].email != email
    ensures Register(s, Text(username), Text(password), Text(email), now, rnd, hash).store.pending
         == s.pending[m.value := s.pending[m.value].(password := Some(hash(password)), createdAt := now, updatedAt := now)]
    ensures Register(s, Text(username), Text(password), Text(email), now, rnd, hash).reply.status == 200
  {
    assert FirstMatch(s.users, (x: UserRecord) => x.username == username || x.email == email).None?;
  }

  /** verifyOtp can only answer 201 when a pending registration holds the
      request email. */
  lemma VerifyNeedsPending(s: Store, code: Field, email: string, now: int, newId: string)
    requires forall k :: 0 <= k < |s.pending| ==> s.pending[k].email != email
    ensures VerifyOtp(s, code, Text(email), now, newId).reply.status == 400
  {
    if Truthy(code) && |email| > 0 {
      var l := LatestOtp(s.otps, email);
      if l.Some? {
        assert l.value.email == email;
      }
    }
  }

  /** With string fields, register keeps pending registrations apart from
      confirmed Users: it only writes a pending record when no User has the
      username or the email. */
  lemma RegisterKeepsSeparated(s: Store, username: string, password: Field, email: string,
                               now: int, rnd: real, hash: string -> string)
    requires Separated(s) && 0.0 <= rnd < 1.0
    ensures Separated(Register(s, Text(username), password, Text(email), now, rnd, hash).store)
  {
    var r := Register(s, Text(username), password, Text(email), now, rnd, hash);
    if r.reply.status == 200 {
      RegisterConflictIff(s, username, password, email, now, rnd, hash);
      assert forall k :: 0 <= k < |s.users| ==> s.users[k].username != username && s.users[k].email != email;
    }
  }

  /** verifyOtp keeps pending registrations apart from Users: the promoted
      record leaves the pending collection, and by the unique indexes no other
      pending record shares its username or email. */
  lemma VerifyKeepsSeparated(s: Store, otp: Field, email: Field, now: int, newId: string)
    requires Valid(s) && Separated(s)
    ensures Separated(VerifyOtp(s, otp, email, now, newId).store)
  {
    if VerifyOtp(s, otp, email, now, newId).reply.status == 201 {
      PromoteKeepsSeparated(s, CastString(email).value, now, newId);
    }
  }

  /** The promotion step of the lemma above. */
  lemma PromoteKeepsSeparated(s: Store, e: string, now: int, newId: string)
    requires Valid(s) && Separated(s)
    ensures Separated(Promote(s, e, now, newId).store)
  {
    var r := Promote(s, e, now, newId);
    if r.reply.status == 201 {
      var i := FirstMatch(s.pending, (p: PendingRecord) => p.email == e).value;
      var u := UserRecord(newId, s.pending[i].username, s.pending[i].email, s.pending[i].password, now, now);
      assert r.store == Store(s.users + [u], RemoveAt(s.pending, i), r.store.otps);
      MoveKeepsSeparated(s.users, s.pending, r.store.otps, i, u);
    }
  }

  /** Moving pending record `i` over to the Users, under its own username and
      email, keeps the two collections apart: by the unique indexes no other
      pending record shares its keys. */
  lemma MoveKeepsSeparated(users: seq<UserRecord>, pending: seq<PendingRecord>, otps: seq<OtpRecord>,
                           i: nat, u: UserRecord)
    requires i < |pending| && PendingUnique(pending) && Separated(Store(users, pending, otps))
    requires u.username == pending[i].username && u.email == pending[i].email
    ensures Separated(Store(users + [u], RemoveAt(pending, i), otps))
  {
    var us := users + [u];
    var ps := RemoveAt(pending, i);
    forall a, b | 0 <= a < |us| && 0 <= b < |ps|
      ensures us[a].username != ps[b].username && us[a].email != ps[b].email
    {
      var b0 := if b < i then b else b + 1;
      assert ps[b] == pending[b0] && b0 != i;
      if a < |users| {
        assert us[a] == users[a];
      }
    }
  }

  /** Under the invariants, with string fields and a fresh ObjectId, the
      User create in verifyOtp never hits a unique index: the 500 answer is
      unreachable. */
  lemma VerifyNeverServerError(s: Store, otp: Field, email: Field, now: int, newId: string)
    requires Valid(s) && Separated(s)
    requires forall k :: 0 <= k < |s.users| ==> s.users[k].id != newId
    ensures VerifyOtp(s, otp, email, now, newId).reply.status != 500
  {
    if Truthy(email) && Truthy(otp) {
      var e := CastString(email).value;
      var m := FirstMatch(s.pending, (p: PendingRecord) => p.email == e);
      if m.Some? {
        var p := s.pending[m.value];
        assert RequiredString(p.username) && RequiredString(p.email);
        assert CreateUser(s.users, UserRecord(newId, p.username, p.email, p.password, now, now)).Some?;
      }
    }
  }

  /** An email sent as a JSON number defeats the conflict check: Mongoose
      casts it for the query, so the User is found, but the strict `===`
      against the stored string fails, and register writes a pending record
      whose email a User already has. */
  lemma NumericEmailSlipsPastConflictCheck(hash: string -> string)
    ensures
      var s := Store([UserRecord("u1", "alice", "5", Some("h"), 0, 0)], [], []);
      var r := Register(s, Text("bob"), Text("pw"), Number(5), 10, 0.0, hash);
      r.reply.status == 200 && !Separated(r.store)
  {
    var s := Store([UserRecord("u1", "alice", "5", Some("h"), 0, 0)], [], []);
    assert CastString(Number(5)) == Some("5");
    var r := Register(s, Text("bob"), Text("pw"), Number(5), 10, 0.0, hash);
    assert r.store.pending == [PendingRecord("bob", "5", Some(hash("pw")), 10, 10)];
  }

  /** With unique usernames, login answers 200 exactly when a User has the
      username and bcrypt accepts the password against its stored hash. */
  lemma LoginSucceedsIff(users: seq<UserRecord>, username: string, password: string,
                         compare: (string, string) -> bool, sign: (Claims, nat) -> string)
    requires UsersUnique(users)
    ensures Login(users, Some(LoginBody(Text(username), Text(password))), compare, sign).status == 200
        <==> exists k :: 0 <= k < |users| && users[k].username == username
               && users[k].password.Some? && compare(password, users[k].password.value)
  {
    if k :| 0 <= k < |users| && users[k].username == username
            && users[k].password.Some? && compare(password, users[k].password.value) {
      var m := FirstMatch(users, (x: UserRecord) => x.username == username);
      assert m.Some?;
      assert m.value == k;
    }
  }
}

=== FILE: auth_middleware.dfy ===
/** `verifyToken` (authMiddleware.js): reads the `authorization` request
    header, takes the second space-separated field as the token, has
    `jwt.verify` check it and either answers 401 or sets `req.user` to the
    decoded payload and passes the request on. `jwt.verify` is a parameter
    returning the decoded payload or `None` for any verification error. A run
    is the trace of the responses it attempts and the call to `next`. */
module AuthMiddleware {
  import opened Common

  const MsgNoToken := "No token provided"
  const MsgInvalidToken := "Invalid Token!"

  /** `'authorization' || 'Authorization'` evaluates to its first operand, a
      non-empty string: only this key is ever read. */
  const HeaderKey := "authorization"

  /** The request headers as Node presents them: names in lower case. */
  type Headers = map<string, string>

  datatype Step<D> =
    | Sent(status: nat, message: string)
    | Next(user: D)

  /** `s.split(sep)` for a one-character separator: every occurrence splits,
      empty fields are kept, and there is always at least one field. */
  function Split(s: string, sep: char): (r: seq<string>)
    ensures |r| >= 1
    decreases |s|
  {
    if |s| == 0 then [""]
    else
      var rest := Split(s[1..], sep);
      if s[0] == sep then [""] + rest
      else [[s[0]] + rest[0]] + rest[1..]
  }

  /** `parts.join(sep)`: the inverse of `Split`. */
  function Join(parts: seq<string>, sep: char): (r: string)
    ensures |parts| >= 2 ==> sep in r
    ensures (forall i :: 0 <= i < |parts| ==> sep !in parts[i]) ==> (sep in r <==> |parts| >= 2)
    decreases |parts|
  {
    if |parts| == 0 then ""
    else if |parts| == 1 then parts[0]
    else parts[0] + [sep] + Join(parts[1..], sep)
  }

  /** `AuthHeader.split(' ')[1]`: `None` is the `undefined` read past the
      end, which happens exactly when the header holds no space. */
  function TokenOf(header: string): (t: Option<string>)
    ensures t.Some? <==> ' ' in header
    ensures t.Some? ==> ' ' !in t.value
    ensures t.Some? ==> |Split(header, ' ')| >= 2 && t.value == Split(header, ' ')[1]
  {
    SplitFields(header, ' ');
    var fields := Split(header, ' ');
    if |fields| >= 2 then Some(fields[1]) else None
  }

  /** JavaScript truthiness of the token: undefined and `""` are falsy. */
  predicate TokenTruthy(token: Option<string>) {
    token.Some? && |token.value| > 0
  }

  /** `jwt.verify(token, secret, callback)`: a falsy token is an error
      ("jwt must be provided") before any check; otherwise the oracle decides. */
  function VerifyJwt<D>(token: Option<string>, verify: string -> Option<D>): (r: Option<D>)
    ensures !TokenTruthy(token) ==> r.None?
    ensures TokenTruthy(token) ==> r == verify(token.value)
  {
    if TokenTruthy(token) then verify(token.value) else None
  }

  /** The header test `!AuthHeader`: absent or empty. */
  predicate HasHeader(headers: Headers) {
    HeaderKey in headers && |headers[HeaderKey]| > 0
  }

  /** `verifyToken` as written: the 401 for a falsy token has no `return`
      after it, so the verification still runs, fails, and answers again. */
  function VerifyToken<D>(headers: Headers, verify: string -> Option<D>): (t: seq<Step<D>>)
    ensures 1 <= |t| <= 2
    ensures !HasHeader(headers) <==> t == [Sent(401, MsgNoToken)]
    ensures t[|t| - 1].Next? <==>
      HasHeader(headers) && TokenTruthy(TokenOf(headers[HeaderKey]))
      && verify(TokenOf(headers[HeaderKey]).value).Some?
    ensures t[|t| - 1].Next? ==> t == [Next(verify(TokenOf(headers[HeaderKey]).value).value)]
    ensures forall k :: 0 <= k < |t| - 1 ==> t[k] == Sent(401, MsgInvalidToken)
    // with a header, a request that does not pass ends in 401 "Invalid Token!"
    ensures HasHeader(headers) && !t[|t| - 1].Next? ==> t[|t| - 1] == Sent(401, MsgInvalidToken)
    // the second step appears only for a falsy token
    ensures |t| == 2 <==> HasHeader(headers) && !TokenTruthy(TokenOf(headers[HeaderKey]))
  {
    if !HasHeader(headers) then [Sent(401, MsgNoToken)]
    else
      assert MsgInvalidToken[0] != MsgNoToken[0];
      var token := TokenOf(headers[HeaderKey]);
      var early := if TokenTruthy(token) then [] else [Sent(401, MsgInvalidToken)];
      match VerifyJwt(token, verify)
      case None =>
        var t := early + [Sent(401, MsgInvalidToken)];
        assert t[|t| - 1] != Sent(401, MsgNoToken);
        t
      case Some(decoded) =>
        var t := early + [Next(decoded)];
        assert t[|t| - 1].Next?;
        t
  }

  /** `verifyToken` with `return` after the 401 for a falsy token: every
      request gets exactly one outcome. */
  function VerifyTokenWithReturn<D>(headers: Headers, verify: string -> Option<D>): (t: seq<Step<D>>)
    ensures |t| == 1
    ensures !HasHeader(headers) <==> t == [Sent(401, MsgNoToken)]
    ensures t[0].Next? <==>
      HasHeader(headers) && TokenTruthy(TokenOf(headers[HeaderKey]))
      && verify(TokenOf(headers[HeaderKey]).value).Some?
    ensures t[0].Next? ==> t[0].user == verify(TokenOf(headers[HeaderKey]).value).value
    ensures HasHeader(headers) && !t[0].Next? ==> t[0] == Sent(401, MsgInvalidToken)
  {
    if !HasHeader(headers) then [Sent(401, MsgNoToken)]
    else
      var token := TokenOf(headers[HeaderKey]);
      if !TokenTruthy(token) then [Sent(401, MsgInvalidToken)]
      else
        match VerifyJwt(token, verify)
        case None => [Sent(401, MsgInvalidToken)]
        case Some(decoded) => [Next(decoded)]
  }

  /** Splitting a text with no separator in it gives the text itself, and a
      leading separator gives an empty first field. */
  lemma {:induction false} SplitPrefix(a: string, b: string, sep: char)
    requires sep !in a
    ensures Split(a + b, sep) == [a + Split(b, sep)[0]] + Split(b, sep)[1..]
    decreases |a|
  {
    if |a| == 0 {
      var r := Split(b, sep);
      assert a + b == b && a + r[0] == r[0];
      assert r == [r[0]] + r[1..];
    } else {
      assert (a + b)[1..] == a[1..] + b;
      SplitPrefix(a[1..], b, sep);
      assert [a[0]] + (a[1..] + Split(b, sep)[0]) == a + Split(b, sep)[0];
    }
  }

  /** No field of a split holds the separator, and there is a single field
      exactly when the text holds no separator. */
  lemma {:induction false} SplitFields(s: string, sep: char)
    ensures forall i :: 0 <= i < |Split(s, sep)| ==> sep !in Split(s, sep)[i]
    ensures |Split(s, sep)| == 1 <==> sep !in s
    decreases |s|
  {
    if |s| > 0 {
      SplitFields(s[1..], sep);
      assert s == [s[0]] + s[1..];
    }
  }

  /** Joining the fields of a split gives back the text. */
  lemma {:induction false} JoinSplit(s: string, sep: char)
    ensures Join(Split(s, sep), sep) == s
    decreases |s|
  {
    if |s| > 0 {
      var rest := Split(s[1..], sep);
      JoinSplit(s[1..], sep);
      if s[0] == sep {
        assert ([""] + rest)[1..] == rest;
      } else {
        var parts := [[s[0]] + rest[0]] + rest[1..];
        if |rest| > 1 {
          assert parts[1..] == rest[1..];
          assert Join(rest, sep) == rest[0] + [sep] + Join(rest[1..], sep);
        }
      }
    }
  }

  /** Splitting a join of separator-free fields gives back the fields. */
  lemma {:induction false} SplitJoin(parts: seq<string>, sep: char)
    requires |parts| >= 1
    requires forall i :: 0 <= i < |parts| ==> sep !in parts[i]
    ensures Split(Join(parts, sep), sep) == parts
    decreases |parts|
  {
    if |parts| == 1 {
      SplitPrefix(parts[0], "", sep);
      assert parts[0] + "" == parts[0];
    } else {
      var tail := Join(parts[1..], sep);
      SplitJoin(parts[1..], sep);
      SplitPrefix(parts[0], [sep] + tail, sep);
      assert ([sep] + tail)[1..] == tail;
      assert parts[0] + [sep] + tail == parts[0] + ([sep] + tail);
      assert parts[0] + "" == parts[0];
      assert parts == [parts[0]] + parts[1..];
    }
  }

  /** The token is the second field of the header, whatever the first is. */
  lemma TokenIsSecondField(parts: seq<string>)
    requires |parts| >= 2
    requires forall i :: 0 <= i < |parts| ==> ' ' !in parts[i]
    ensures TokenOf(Join(parts, ' ')) == Some(parts[1])
  {
    SplitJoin(parts, ' ');
  }

  /** A header `Bearer <token>` yields the token (section 2.1 of RFC 6750
      sends bearer credentials this way). */
  lemma BearerTokenRead(token: string)
    requires ' ' !in token
    ensures TokenOf("Bearer " + token) == Some(token)
  {
    assert Join(["Bearer", token], ' ') == "Bearer " + token;
    TokenIsSecondField(["Bearer", token]);
  }

  /** The scheme word is never checked: any first word, `Basic` or none at
      all, gives the same outcome as `Bearer`. */
  lemma SchemeWordIgnored<D>(scheme: string, token: string, verify: string -> Option<D>)
    requires ' ' !in scheme && ' ' !in token
    ensures VerifyToken(map[HeaderKey := scheme + " " + token], verify)
         == VerifyToken(map[HeaderKey := "Bearer " + token], verify)
  {
    BearerTokenRead(token);
    assert Join([scheme, token], ' ') == scheme + " " + token;
    TokenIsSecondField([scheme, token]);
  }

  /** Only the `authorization` header is read: requests that agree on it
      get the same outcome, whatever their other headers. */
  lemma OnlyAuthorizationRead<D>(h1: Headers, h2: Headers, verify: string -> Option<D>)
    requires HeaderKey in h1 <==> HeaderKey in h2
    requires HeaderKey in h1 ==> h1[HeaderKey] == h2[HeaderKey]
    ensures VerifyToken(h1, verify) == VerifyToken(h2, verify)
  {
  }

  /** As written, a header whose token is falsy (no space, or nothing after
      the space) attempts two 401 responses and never calls `next`. */
  lemma FalsyTokenAnsweredTwice<D>(headers: Headers, verify: string -> Option<D>)
    requires HasHeader(headers) && !TokenTruthy(TokenOf(headers[HeaderKey]))
    ensures VerifyToken(headers, verify) == [Sent(401, MsgInvalidToken), Sent(401, MsgInvalidToken)]
  {
  }

  /** A concrete instance: the header `Bearer` with no token after it. */
  lemma BareSchemeAnsweredTwice<D>(verify: string -> Option<D>)
    ensures VerifyToken(map[HeaderKey := "Bearer"], verify) == [Sent(401, MsgInvalidToken), Sent(401, MsgInvalidToken)]
  {
    assert ' ' !in "Bearer";
    FalsyTokenAnsweredTwice(map[HeaderKey := "Bearer"], verify);
  }

  /** The corrected middleware differs from the original exactly on headers
      whose token is falsy. */
  lemma WithReturnAgreesOtherwise<D>(headers: Headers, verify: string -> Option<D>)
    ensures VerifyTokenWithReturn(headers, verify) == VerifyToken(headers, verify)
        <==> !(HasHeader(headers) && !TokenTruthy(TokenOf(headers[HeaderKey])))
  {
  }
}

=== FILE: common.dfy ===
/** Small generic helpers shared by every part of the model: an optional value
    and the two sequence queries a document store answers in natural order. */
module Common {

  datatype Option<T> = None | Some(value: T)

  /** Index of the first element satisfying `p`, scanning in natural order.
      The model answers `findOne` without a sort this way; the store itself
      promises no order. */
  function FirstMatch<T>(s: seq<T>, p: T -> bool): (r: Option<nat>)
    ensures r.Some? ==> r.value < |s| && p(s[r.value])
    ensures r.Some? ==> forall k :: 0 <= k < r.value ==> !p(s[k])
    ensures r.None? <==> forall k :: 0 <= k < |s| ==> !p(s[k])
    decreases |s|
  {
    if |s| == 0 then None
    else if p(s[0]) then Some(0)
    else
      match FirstMatch(s[1..], p)
      case None => None
      case Some(i) => Some(i + 1)
  }

  /** Index of the last element satisfying `p`. */
  function LastMatch<T>(s: seq<T>, p: T -> bool): (r: Option<nat>)
    ensures r.Some? ==> r.value < |s| && p(s[r.value])
    ensures r.Some? ==> forall k :: r.value < k < |s| ==> !p(s[k])
    ensures r.None? <==> forall k :: 0 <= k < |s| ==> !p(s[k])
    decreases |s|
  {
    if |s| == 0 then None
    else if p(s[|s| - 1]) then Some(|s| - 1)
    else LastMatch(s[..|s| - 1], p)
  }

  /** The sequence with position `i` removed; every other element keeps its order. */
  function RemoveAt<T>(s: seq<T>, i: nat): (r: seq<T>)
    requires i < |s|
    ensures |r| == |s| - 1
    ensures forall k :: 0 <= k < i ==> r[k] == s[k]
    ensures forall k :: i <= k < |r| ==> r[k] == s[k + 1]
    ensures multiset(r) + multiset{s[i]} == multiset(s)
  {
    assert s == s[..i] + [s[i]] + s[i + 1..];
    s[..i] + s[i + 1..]
  }

  /** Removes the first element satisfying `p`, if any (a `deleteOne` with that filter). */
  function DeleteFirst<T>(s: seq<T>, p: T -> bool): (r: seq<T>)
    ensures FirstMatch(s, p).None? ==> r == s
    ensures FirstMatch(s, p).Some? ==> |r| == |s| - 1 && multiset(r) + multiset{s[FirstMatch(s, p).value]} == multiset(s)
    ensures FirstMatch(s, p).Some? ==> r == RemoveAt(s, FirstMatch(s, p).value)
    ensures forall k :: 0 <= k < |r| ==> r[k] in s
  {
    match FirstMatch(s, p)
    case None => s
    case Some(i) => RemoveAt(s, i)
  }
}

=== FILE: extract_json.dfy ===
/** `extractJSON(text)` (extractJson.js): the greedy regular expression
    `/\{[\s\S]*\}/` picks the text from the first `{` to the last `}`, and
    `JSON.parse` (RFC 8259), kept abstract as `parse`, reads that span; a
    missing match, a parse failure or a reply that is not a string all end in
    `null` (`None`), never in an exception. */
module ExtractJson {
  import opened Common

  /** A half-open span `text[start..end]`. */
  datatype Range = Range(start: nat, end: nat)

  /** `/\{[\s\S]*\}/` can match `text[i..j]`: a `{`, any characters, a `}`. */
  ghost predicate IsMatch(text: string, i: int, j: int) {
    0 <= i && i + 2 <= j <= |text| && text[i] == '{' && text[j - 1] == '}'
  }

  /** The match `String.prototype.match` reports: the leftmost start, and
      from it the longest end, since `[\s\S]*` is greedy. */
  ghost predicate IsRegexMatch(text: string, i: int, j: int) {
    && IsMatch(text, i, j)
    && (forall i', j' :: IsMatch(text, i', j') ==> i <= i')
    && (forall j' :: IsMatch(text, i, j') ==> j' <= j)
  }

  /** The matched span, found as the first `{` and the last `}` of the text. */
  function Span(text: string): (r: Option<Range>)
    ensures r.Some? ==> IsRegexMatch(text, r.value.start, r.value.end)
    ensures r.None? <==> forall i, j :: !IsMatch(text, i, j)
  {
    match FirstMatch(text, (c: char) => c == '{')
    case None => None
    case Some(i) =>
      match LastMatch(text, (c: char) => c == '}')
      case None => None
      case Some(k) =>
        if i < k then Some(Range(i, k + 1))
        else
          assert forall a, b :: IsMatch(text, a, b) ==> i <= a && b - 1 <= k;
          None
  }

  /** The scan behind `Span`: forward to the first `{`, backward to the last `}`. */
  method ScanSpan(text: string) returns (found: bool, start: nat, end: nat)
    ensures found <==> Span(text).Some?
    ensures found ==> Span(text) == Some(Range(start, end))
  {
    start := 0;
    while start < |text| && text[start] != '{'
      invariant start <= |text|
      invariant forall k :: 0 <= k < start ==> text[k] != '{'
    {
      start := start + 1;
    }
    end := |text|;
    while end > 0 && text[end - 1] != '}'
      invariant end <= |text|
      invariant forall k :: end <= k < |text| ==> text[k] != '}'
    {
      end := end - 1;
    }
    found := start < |text| && end > 0 && start < end - 1;
    if found {
      assert FirstMatch(text, (c: char) => c == '{') == Some(start);
      assert LastMatch(text, (c: char) => c == '}') == Some(end - 1);
    }
  }

  /** `extractJSON`: `None` stands for the `null` it returns; `text` is `None`
      when the model reply was not a string (`text.match` then throws and the
      catch returns null). */
  function Extract<J>(text: Option<string>, parse: string -> Option<J>): (r: Option<J>)
    ensures text.None? || Span(text.value).None? ==> r.None?
    ensures r.Some? ==> exists i, j :: IsRegexMatch(text.value, i, j) && parse(text.value[i..j]) == r
    // with a match, the result is whatever `JSON.parse` makes of the matched span
    ensures text.Some? && Span(text.value).Some? ==>
      r == parse(text.value[Span(text.value).value.start..Span(text.value).value.end])
  {
    match text
    case None => None
    case Some(t) =>
      match Span(t)
      case None => None
      case Some(Range(i, j)) => parse(t[i..j])
  }

  /** Selecting again from the selected span returns the whole span. */
  lemma SpanIdempotent(text: string)
    requires Span(text).Some?
    ensures var sp := Span(text).value;
      Span(text[sp.start..sp.end]) == Some(Range(0, sp.end - sp.start))
  {
    var sp := Span(text).value;
    var t := text[sp.start..sp.end];
    assert FirstMatch(t, (c: char) => c == '{') == Some(0);
    assert LastMatch(t, (c: char) => c == '}') == Some(|t| - 1);
  }

  /** Text around a braced block does not matter as long as no `{` precedes it
      and no `}` follows it: the result is the parse of the block alone. */
  lemma SurroundingsIgnored<J>(before: string, block: string, after: string, parse: string -> Option<J>)
    requires '{' !in before && '}' !in after
    requires |block| >= 2 && block[0] == '{' && block[|block| - 1] == '}'
    ensures Extract(Some(before + block + after), parse) == parse(block)
  {
    var t := before + block + after;
    assert t[|before|] == '{' && t[|before| + |block| - 1] == '}';
    assert forall k :: 0 <= k < |before| ==> t[k] == before[k];
    assert forall k :: |before| + |block| <= k < |t| ==> t[k] == after[k - |before| - |block|];
    assert FirstMatch(t, (c: char) => c == '{') == Some(|before|);
    assert LastMatch(t, (c: char) => c == '}') == Some(|before| + |block| - 1);
    assert t[|before|..|before| + |block|] == block;
  }

  /** Two separate objects in one reply are taken as a single span from the
      first object's `{` to the second's `}`: the result is the parse of that
      whole span, so null when it is not one JSON value, never the first object. */
  lemma TwoObjectsReadAsOneSpan<J>(first: string, between: string, second: string, parse: string -> Option<J>)
    requires |first| >= 1 && first[0] == '{'
    requires |second| >= 1 && second[|second| - 1] == '}'
    ensures Extract(Some(first + between + second), parse) == parse(first + between + second)
  {
    var t := first + between + second;
    assert t[0] == '{' && t[|t| - 1] == '}';
    assert FirstMatch(t, (c: char) => c == '{') == Some(0);
    assert LastMatch(t, (c: char) => c == '}') == Some(|t| - 1);
    assert t[0..|t|] == t;
  }

  /** An object embedded in prose comes back unchanged: when serialising it
      gives a braced text that parses back to it, extraction from a reply
      with brace-free prose around it returns that object. */
  lemma EmbeddedObjectRoundTrip<J>(x: J, serialize: J -> string, parse: string -> Option<J>,
                                   before: string, after: string)
    requires '{' !in before && '}' !in after
    requires |serialize(x)| >= 2 && serialize(x)[0] == '{' && serialize(x)[|serialize(x)| - 1] == '}'
    requires parse(serialize(x)) == Some(x)
    ensures Extract(Some(before + serialize(x) + after), parse) == Some(x)
  {
    SurroundingsIgnored(before, serialize(x), after, parse);
  }
}

=== FILE: http.dfy ===
/** What a controller hands back to Express: a status and a JSON body, paired
    with the store as the handler leaves it. */
module Http {
  import opened JsValues
  import opened Records

  datatype Body =
    | Message(text: string)
    | MessageWithEmail(text: string, email: Field)
    | TokenBody(token: string)

  datatype Reply = Reply(status: nat, body: Body)

  datatype Outcome = Outcome(reply: Reply, store: Store)
}

=== FILE: js_values.dfy ===
/** The slice of JavaScript value semantics the controllers rely on: the
    truthiness tests `!x`, `String(x)` as used by template literals and by
    Mongoose's cast to a String path, strict `===` against a stored string,
    and the decimal rendering of non-negative integers. */
module JsValues {
  import opened Common

  /** One property of a parsed JSON request body: absent (`undefined`), a
      string, or an integral number. */
  datatype Field = Missing | Text(s: string) | Number(n: int)

  /** JavaScript truthiness: `undefined`, `""` and `0` are falsy. */
  predicate Truthy(f: Field) {
    match f
    case Missing => false
    case Text(s) => |s| > 0
    case Number(n) => n != 0
  }

  /** `stored === f` for a string `stored`: a number never equals a string. */
  predicate StrictEqualsString(f: Field, stored: string) {
    f.Text? && f.s == stored
  }

  /** Mongoose's cast of a request value to a String path; `undefined` stays absent. */
  function CastString(f: Field): (r: Option<string>)
    ensures r.None? <==> f.Missing?
    ensures f.Text? ==> r == Some(f.s)
    ensures Truthy(f) ==> r.Some? && |r.value| > 0
  {
    match f
    case Missing => None
    case Text(s) => Some(s)
    case Number(n) => Some(IntToDecimal(n))
  }

  /** `${f}` in a template literal. */
  function Interpolate(f: Field): (r: string)
    ensures f.Missing? ==> r == "undefined"
    ensures f.Missing? || CastString(f) == Some(r)
  {
    match f
    case Missing => "undefined"
    case Text(s) => s
    case Number(n) => IntToDecimal(n)
  }

  predicate IsDigit(c: char) {
    '0' <= c <= '9'
  }

  predicate AllDigits(s: string) {
    forall i :: 0 <= i < |s| ==> IsDigit(s[i])
  }

  function DigitChar(d: nat): (c: char)
    requires d < 10
    ensures IsDigit(c)
  {
    ('0' as int + d) as char
  }

  function DigitValue(c: char): (d: nat)
    requires IsDigit(c)
    ensures d < 10
  {
    c as int - '0' as int
  }

  /** Decimal rendering of a non-negative integer, as `String(n)` prints it:
      no leading zero except for zero itself. */
  function NatToDecimal(n: nat): (r: string)
    ensures |r| >= 1
    ensures AllDigits(r)
    ensures r[0] == '0' <==> n == 0
    decreases n
  {
    if n < 10 then [DigitChar(n)]
    else NatToDecimal(n / 10) + [DigitChar(n % 10)]
  }

  function IntToDecimal(n: int): (r: string)
    ensures |r| >= 1
  {
    if n < 0 then "-" + NatToDecimal(-n) else NatToDecimal(n)
  }

  /** Reads a string of decimal digits back into the number it denotes. */
  function ParseDecimal(s: string): (n: nat)
    requires AllDigits(s)
    decreases |s|
  {
    if |s| == 0 then 0
    else ParseDecimal(s[..|s| - 1]) * 10 + DigitValue(s[|s| - 1])
  }

  function Pow10(k: nat): (p: nat)
    ensures p >= 1
  {
    if k == 0 then 1 else 10 * Pow10(k - 1)
  }

  /** Rendering then parsing gives the number back, so the rendering is injective. */
  lemma {:induction false} DecimalRoundTrip(n: nat)
    ensures ParseDecimal(NatToDecimal(n)) == n
    decreases n
  {
    if n >= 10 {
      var p := NatToDecimal(n / 10);
      var r := NatToDecimal(n);
      assert r == p + [DigitChar(n % 10)];
      assert r[..|r| - 1] == p;
      DecimalRoundTrip(n / 10);
    }
  }

  lemma {:induction false} Pow10Monotone(a: nat, b: nat)
    requires a <= b
    ensures Pow10(a) <= Pow10(b)
    decreases b - a
  {
    if a < b {
      Pow10Monotone(a, b - 1);
    }
  }

  /** A positive number has exactly k decimal digits when it lies in [10^(k-1), 10^k). */
  lemma {:induction false} DecimalLength(n: nat)
    requires n >= 1
    ensures Pow10(|NatToDecimal(n)| - 1) <= n < Pow10(|NatToDecimal(n)|)
    decreases n
  {
    if n >= 10 {
      DecimalLength(n / 10);
    }
  }

  /** The rendering has six characters exactly for the numbers 100000..999999. */
  lemma SixDigitsIff(n: nat)
    ensures |NatToDecimal(n)| == 6 <==> 100000 <= n <= 999999
  {
    var k := |NatToDecimal(n)|;
    if n == 0 {
      assert k == 1;
    } else {
      DecimalLength(n);
      if k <= 5 {
        Pow10Monotone(k, 5);
      } else if k >= 7 {
        Pow10Monotone(6, k - 1);
      }
    }
  }
}

=== FILE: otp_controller.dfy ===
/** The one-time-code half of registration (otpController.js): `sendOtp`
    issues a code, `verifyOtp` checks the newest code for an email and
    promotes the pending registration to a User. The mail transport is a no-op
    effect; the clock (`now`), `Math.random()` (`rnd`) and the fresh ObjectId
    of the created User (`newId`) are parameters. */
module OtpController {
  import opened Common
  import opened JsValues
  import opened Records
  import opened Http

  /** `15 * 60 * 1000`: codes live 15 minutes (the mail text claims 10). */
  const OtpLifetimeMs: int := 15 * 60 * 1000

  const MsgOtpRequired := "Email and OTP are required!"
  const MsgNoOtp := "No OTP request found!"
  const MsgExpired := "OTP expired!"
  const MsgInvalidOtp := "Invalid OTP!"
  const MsgNoPending := "Pending user not found!"
  const MsgCreated := "Account created successfully!"
  const MsgServerError := "Something went wrong!"

  /** A stored code as `sendOtp` writes it: the six-digit decimal string of
      the drawn number, expiring 15 minutes after creation. The handler's
      `Date.now()` and the timestamp Mongoose takes at create are two clock
      reads; the model takes both from the one `now`, so the equality is exact. */
  predicate OtpWellFormed(r: OtpRecord) {
    && r.expireAt == r.createdAt + OtpLifetimeMs
    && |r.otp| == 6 && AllDigits(r.otp) && 100000 <= ParseDecimal(r.otp) <= 999999
  }

  ghost predicate OtpsWellFormed(otps: seq<OtpRecord>) {
    forall k :: 0 <= k < |otps| ==> OtpWellFormed(otps[k])
  }

  /** The invariant every handler keeps: the unique indexes hold, every
      pending record passed its validators and every stored code is well formed. */
  ghost predicate Valid(s: Store) {
    UsersUnique(s.users) && PendingUnique(s.pending) && PendingRequired(s.pending) && OtpsWellFormed(s.otps)
  }

  /** `Math.floor(100000 + Math.random() * 900000)` with `Math.random()` = rnd in [0, 1). */
  function OtpCode(rnd: real): (code: nat)
    requires 0.0 <= rnd < 1.0
    ensures 100000 <= code <= 999999
  {
    (100000.0 + rnd * 900000.0).Floor
  }

  /** The stored form of a code: Mongoose casts the number to its decimal
      string, which has exactly six digits and reads back as the number. */
  function CodeString(code: nat): (s: string)
    requires 100000 <= code <= 999999
    ensures |s| == 6 && AllDigits(s) && ParseDecimal(s) == code
  {
    SixDigitsIff(code);
    DecimalRoundTrip(code);
    NatToDecimal(code)
  }

  /** The code record `sendOtp(email)` appends at time `now`. */
  ghost predicate IssuedFor(r: OtpRecord, email: string, now: int) {
    r.email == email && r.createdAt == now && r.expireAt == now + OtpLifetimeMs && OtpWellFormed(r)
  }

  /** `sendOtp(email)`: appends one code for the email without touching earlier
      ones. A value Mongoose cannot store as a required string makes the
      create throw, and the throw is swallowed, as is any mail failure, so
      sendOtp never fails. */
  function SendOtp(otps: seq<OtpRecord>, email: Field, now: int, rnd: real): (r: seq<OtpRecord>)
    requires 0.0 <= rnd < 1.0
    ensures |r| >= |otps| && r[..|otps|] == otps
    ensures CastString(email).Some? && RequiredString(CastString(email).value) ==>
      |r| == |otps| + 1 && IssuedFor(r[|otps|], CastString(email).value, now)
    ensures !(CastString(email).Some? && RequiredString(CastString(email).value)) ==> r == otps
    ensures OtpsWellFormed(otps) ==> OtpsWellFormed(r)
  {
    var e := CastString(email);
    if e.Some? && RequiredString(e.value) then
      otps + [OtpRecord(CodeString(OtpCode(rnd)), e.value, now + OtpLifetimeMs, now)]
    else otps
  }

  /** `Otp.findOne({email}).sort({createdAt: -1})`: the position of the code
      with the greatest createdAt; among equal timestamps the later insertion
      wins (the store leaves that tie unspecified). */
  function LatestOtpIndex(otps: seq<OtpRecord>, email: string): (r: Option<nat>)
    ensures r.Some? ==> r.value < |otps| && otps[r.value].email == email
    ensures r.Some? ==> forall k :: 0 <= k < |otps| && otps[k].email == email ==>
      otps[k].createdAt <= otps[r.value].createdAt
    ensures r.Some? ==> forall k :: r.value < k < |otps| && otps[k].email == email ==>
      otps[k].createdAt < otps[r.value].createdAt
    ensures r.None? <==> forall k :: 0 <= k < |otps| ==> otps[k].email != email
    decreases |otps|
  {
    if |otps| == 0 then None
    else
      var n := |otps| - 1;
      var rest := LatestOtpIndex(otps[..n], email);
      if otps[n].email != email then rest
      else if rest.None? || otps[rest.value].createdAt <= otps[n].createdAt then Some(n)
      else rest
  }

  /** The newest code record for the email, if there is one. */
  function LatestOtp(otps: seq<OtpRecord>, email: string): (r: Option<OtpRecord>)
    ensures r.Some? ==> r.value in otps && r.value.email == email
    ensures r.Some? ==> forall y :: y in otps && y.email == email ==> y.createdAt <= r.value.createdAt
    ensures r.None? <==> forall y :: y in otps ==> y.email != email
  {
    match LatestOtpIndex(otps, email)
    case None => None
    case Some(i) => Some(otps[i])
  }

  /** The tail of `verifyOtp` once a live, matching code for `email` has been
      found: look up the pending record, create the User from it, then delete
      the pending record and one code for the email. */
  function Promote(s: Store, email: string, now: int, newId: string): (r: Outcome)
    ensures r.reply.status == 201 || r.reply.status == 400 || r.reply.status == 500
    ensures r.reply.status != 201 ==> r.store == s
    ensures r.reply == Reply(400, Message(MsgNoPending)) <==> forall k :: 0 <= k < |s.pending| ==> s.pending[k].email != email
    ensures r.reply.status == 201 ==>
      && |r.store.users| == |s.users| + 1 && r.store.users[..|s.users|] == s.users
      && r.store.users[|s.users|].id == newId
      && exists k :: 0 <= k < |s.pending| && s.pending[k].email == email
           && r.store.users[|s.users|].username == s.pending[k].username
           && r.store.users[|s.users|].email == s.pending[k].email
           && r.store.users[|s.users|].password == s.pending[k].password
    ensures r.reply.status == 201 ==> |r.store.pending| == |s.pending| - 1
    ensures r.reply.status == 201 && (exists k :: 0 <= k < |s.otps| && s.otps[k].email == email) ==>
      |r.store.otps| == |s.otps| - 1
    ensures r.reply.status == 201 && PendingUnique(s.pending) ==>
      forall k :: 0 <= k < |r.store.pending| ==> r.store.pending[k].email != email
    // the promoted registration is the first pending record of the email; it alone leaves
    ensures r.reply.status == 201 ==>
      exists j :: 0 <= j < |s.pending| && s.pending[j].email == email
        && (forall k :: 0 <= k < j ==> s.pending[k].email != email)
        && r.store.users == s.users + [UserRecord(newId, s.pending[j].username, s.pending[j].email,
                                                  s.pending[j].password, now, now)]
        && r.store.pending == RemoveAt(s.pending, j)
    // deleteOne removes the first code of the email, or none when it has no code
    ensures r.reply.status == 201 && (exists k :: 0 <= k < |s.otps| && s.otps[k].email == email) ==>
      exists i :: 0 <= i < |s.otps| && s.otps[i].email == email
        && (forall k :: 0 <= k < i ==> s.otps[k].email != email) && r.store.otps == RemoveAt(s.otps, i)
    ensures r.reply.status == 201 && (forall k :: 0 <= k < |s.otps| ==> s.otps[k].email != email) ==>
      r.store.otps == s.otps
    ensures Valid(s) ==> Valid(r.store)
  {
    match FirstMatch(s.pending, (p: PendingRecord) => p.email == email)
    case None => Outcome(Reply(400, Message(MsgNoPending)), s)
    case Some(i) =>
      var p := s.pending[i];
      match CreateUser(s.users, UserRecord(newId, p.username, p.email, p.password, now, now))
      case None => Outcome(Reply(500, Message(MsgServerError)), s)
      case Some(users) =>
        Outcome(Reply(201, Message(MsgCreated)),
                Store(users, DeletePendingByEmail(s.pending, email), DeleteOtpByEmail(s.otps, email)))
  }

  /** The check chain of `verifyOtp`, in the handler's order: both fields
      present, a code on record for the email, not expired (`expireAt < now`
      rejects), equal as a string; each failure answers 400 and writes nothing. */
  function VerifyOtp(s: Store, otp: Field, email: Field, now: int, newId: string): (r: Outcome)
    ensures !Truthy(email) || !Truthy(otp) ==> r == Outcome(Reply(400, Message(MsgOtpRequired)), s)
    ensures r.reply.status == 201 || r.reply.status == 400 || r.reply.status == 500
    ensures r.reply.status != 201 ==> r.store == s
    // anything past the checks needs a string code equal to the newest code for the email, not yet expired
    ensures r.reply.status != 400 ==>
      && otp.Text? && CastString(email).Some?
      && LatestOtp(s.otps, CastString(email).value).Some?
      && LatestOtp(s.otps, CastString(email).value).value.otp == otp.s
      && now <= LatestOtp(s.otps, CastString(email).value).value.expireAt
    // and, in the handler's order, each check decides the answer
    ensures Truthy(email) && Truthy(otp) && LatestOtp(s.otps, CastString(email).value).None? ==>
      r == Outcome(Reply(400, Message(MsgNoOtp)), s)
    ensures Truthy(email) && Truthy(otp) && LatestOtp(s.otps, CastString(email).value).Some?
            && LatestOtp(s.otps, CastString(email).value).value.expireAt < now ==>
      r == Outcome(Reply(400, Message(MsgExpired)), s)
    ensures Truthy(email) && Truthy(otp) && LatestOtp(s.otps, CastString(email).value).Some?
            && now <= LatestOtp(s.otps, CastString(email).value).value.expireAt
            && !(otp.Text? && otp.s == LatestOtp(s.otps, CastString(email).value).value.otp) ==>
      r == Outcome(Reply(400, Message(MsgInvalidOtp)), s)
    ensures Truthy(email) && Truthy(otp) && LatestOtp(s.otps, CastString(email).value).Some?
            && now <= LatestOtp(s.otps, CastString(email).value).value.expireAt
            && otp.Text? && otp.s == LatestOtp(s.otps, CastString(email).value).value.otp ==>
      r == Promote(s, CastString(email).value, now, newId)
    ensures Valid(s) ==> Valid(r.store)
  {
    if !Truthy(email) || !Truthy(otp) then Outcome(Reply(400, Message(MsgOtpRequired)), s)
    else
      var e := CastString(email).value;
      match LatestOtp(s.otps, e)
      case None => Outcome(Reply(400, Message(MsgNoOtp)), s)
      case Some(rec) =>
        if rec.expireAt < now then Outcome(Reply(400, Message(MsgExpired)), s)
        else if !StrictEqualsString(otp, rec.otp) then Outcome(Reply(400, Message(MsgInvalidOtp)), s)
        else Promote(s, rec.email, now, newId)
  }

  /** A 201 from verifyOtp adds exactly one User, copied field for field from
      a pending record of the email, and removes that pending registration
      and one stored code for the email. */
  lemma VerifySuccessEffect(s: Store, otp: Field, email: Field, now: int, newId: string)
    requires VerifyOtp(s, otp, email, now, newId).reply.status == 201
    ensures var r := VerifyOtp(s, otp, email, now, newId).store;
      var e := CastString(email).value;
      && |r.users| == |s.users| + 1 && r.users[..|s.users|] == s.users
      && r.users[|s.users|].id == newId
      && (exists k :: 0 <= k < |s.pending| && s.pending[k].email == e
           && r.users[|s.users|].username == s.pending[k].username
           && r.users[|s.users|].email == s.pending[k].email
           && r.users[|s.users|].password == s.pending[k].password)
      && |r.pending| == |s.pending| - 1
      && |r.otps| == |s.otps| - 1
      && (PendingUnique(s.pending) ==> forall k :: 0 <= k < |r.pending| ==> r.pending[k].email != e)
      // the removed registration and code are the first ones of the email; all else keeps its order
      && (exists j :: 0 <= j < |s.pending| && s.pending[j].email == e
            && r.users == s.users + [UserRecord(newId, s.pending[j].username, s.pending[j].email,
                                                s.pending[j].password, now, now)]
            && r.pending == RemoveAt(s.pending, j))
      && (exists i :: 0 <= i < |s.otps| && s.otps[i].email == e
            && (forall k :: 0 <= k < i ==> s.otps[k].email != e) && r.otps == RemoveAt(s.otps, i))
  {
    var e := CastString(email).value;
    var l := LatestOtp(s.otps, e).value;
    assert l in s.otps;
  }

  /** Appending one record changes the newest code for an email only when the
      record has that email and is at least as recent. */
  lemma LatestSnoc(q: seq<OtpRecord>, x: OtpRecord, email: string)
    ensures LatestOtp(q + [x], email) ==
      if x.email != email then LatestOtp(q, email)
      else if LatestOtp(q, email).None? || LatestOtp(q, email).value.createdAt <= x.createdAt then Some(x)
      else LatestOtp(q, email)
  {
    assert (q + [x])[..|q|] == q;
  }

  /** A TTL pass at any time up to `now` never removes a newest code that is
      still live at `now`, and leaves it the newest. */
  lemma {:induction false} SweepKeepsLiveLatest(otps: seq<OtpRecord>, email: string, t: int, now: int)
    requires t <= now
    requires LatestOtp(otps, email).Some? && now <= LatestOtp(otps, email).value.expireAt
    ensures LatestOtp(TtlSweep(otps, t), email) == LatestOtp(otps, email)
    decreases |otps|
  {
    var n := |otps| - 1;
    var p, x := otps[..n], otps[n];
    assert otps == p + [x];
    LatestSnoc(p, x, email);
    var sp := TtlSweep(p, t);
    assert TtlSweep(otps, t) == if x.expireAt < t then sp else sp + [x];
    if x.expireAt >= t {
      LatestSnoc(sp, x, email);
    }
    if x.email != email || (LatestOtp(p, email).Some? && LatestOtp(p, email).value.createdAt > x.createdAt) {
      SweepKeepsLiveLatest(p, email, t, now);
    } else {
      var ls := LatestOtp(sp, email);
      if ls.Some? {
        assert ls.value in p;
      }
    }
  }

  /** When every code expires a fixed time after its creation and the newest
      code has expired, so has every code for that email that survives a pass. */
  lemma SweepKeepsExpiredLatestExpired(otps: seq<OtpRecord>, email: string, t: int, now: int)
    requires OtpsWellFormed(otps)
    requires LatestOtp(otps, email).Some? && LatestOtp(otps, email).value.expireAt < now
    ensures LatestOtp(TtlSweep(otps, t), email).None? || LatestOtp(TtlSweep(otps, t), email).value.expireAt < now
  {
    var ls := LatestOtp(TtlSweep(otps, t), email);
    if ls.Some? {
      var y := ls.value;
      assert y in otps;
      var k :| 0 <= k < |otps| && otps[k] == y;
      assert OtpWellFormed(otps[k]);
      assert OtpWellFormed(LatestOtp(otps, email).value);
    }
  }

  /** Promote's answer does not depend on which codes are stored. */
  lemma PromoteReplyIgnoresOtps(s: Store, otps: seq<OtpRecord>, email: string, now: int, newId: string)
    ensures Promote(s.(otps := otps), email, now, newId).reply == Promote(s, email, now, newId).reply
  {
  }

  /** Removal by the TTL index is lazy and never decides anything: whether
      verifyOtp answers 201, 400 or 500 is the same before and after a TTL
      pass at any time up to `now`, because the handler's own `expireAt < now`
      test already rejects every code such a pass could remove. */
  lemma SweepPreservesVerdict(s: Store, otp: Field, email: Field, now: int, newId: string, t: int)
    requires t <= now
    requires OtpsWellFormed(s.otps)
    ensures VerifyOtp(s.(otps := TtlSweep(s.otps, t)), otp, email, now, newId).reply.status
         == VerifyOtp(s, otp, email, now, newId).reply.status
  {
    var s2 := s.(otps := TtlSweep(s.otps, t));
    if Truthy(email) && Truthy(otp) {
      var e := CastString(email).value;
      var l := LatestOtp(s.otps, e);
      var l2 := LatestOtp(s2.otps, e);
      if l.None? {
        assert l2.None?;
        assert VerifyOtp(s2, otp, email, now, newId).reply.status == 400;
      } else if now <= l.value.expireAt {
        SweepKeepsLiveLatest(s.otps, e, t, now);
        assert l2 == l;
        PromoteReplyIgnoresOtps(s, s2.otps, l.value.email, now, newId);
      } else {
        SweepKeepsExpiredLatestExpired(s.otps, e, t, now);
        assert VerifyOtp(s2, otp, email, now, newId).reply.status == 400;
      }
    }
  }

  /** The expiry test is strict: a code presented exactly at its `expireAt`
      is not reported expired; one presented a millisecond later is. */
  lemma ExpiryIsStrict(s: Store, otp: Field, email: Field, now: int, newId: string)
    requires Truthy(email) && Truthy(otp)
    requires LatestOtp(s.otps, CastString(email).value).Some?
    ensures VerifyOtp(s, otp, email, now, newId).reply.body == Message(MsgExpired)
        <==> LatestOtp(s.otps, CastString(email).value).value.expireAt < now
  {
    assert MsgExpired[0] == 'O' && MsgInvalidOtp[0] == 'I' && MsgNoPending[0] == 'P';
    assert MsgServerError[0] == 'S' && MsgCreated[0] == 'A';
  }

  /** Only the newest code counts: a code other than the newest one's is
      rejected as invalid while the newest is live, even when it equals an
      older, unexpired code for the same email. */
  lemma OnlyLatestConsulted(s: Store, code: string, email: Field, now: int, newId: string)
    requires Truthy(email) && |code| > 0
    requires LatestOtp(s.otps, CastString(email).value).Some?
    requires now <= LatestOtp(s.otps, CastString(email).value).value.expireAt
    requires code != LatestOtp(s.otps, CastString(email).value).value.otp
    ensures VerifyOtp(s, Text(code), email, now, newId) == Outcome(Reply(400, Message(MsgInvalidOtp)), s)
  {
  }

  /** A code sent as a JSON number never passes the strict comparison with
      the stored string, whatever its value. */
  lemma NumericCodeNeverAccepted(s: Store, code: int, email: Field, now: int, newId: string)
    ensures VerifyOtp(s, Number(code), email, now, newId).reply.status == 400
  {
  }

  /** Once verifyOtp has succeeded for an email, no later verifyOtp for the
      same email adds a User, whatever code it presents, unless a register
      runs in between: the pending record for the email is gone. */
  lemma ReplayAddsNoUser(s: Store, otp: Field, email: Field, now: int, newId: string,
                         otp2: Field, email2: Field, now2: int, newId2: string)
    requires PendingUnique(s.pending)
    requires VerifyOtp(s, otp, email, now, newId).reply.status == 201
    requires CastString(email2) == CastString(email)
    ensures var s1 := VerifyOtp(s, otp, email, now, newId).store;
      && VerifyOtp(s1, otp2, email2, now2, newId2).reply.status == 400
      && VerifyOtp(s1, otp2, email2, now2, newId2).store.users == s1.users
  {
    var s1 := VerifyOtp(s, otp, email, now, newId).store;
    var e := CastString(email).value;
    assert forall k :: 0 <= k < |s1.pending| ==> s1.pending[k].email != e;
    if Truthy(email2) && Truthy(otp2) {
      var l := LatestOtp(s1.otps, e);
      if l.Some? {
        assert l.value.email == e;
        assert FirstMatch(s1.pending, (p: PendingRecord) => p.email == l.value.email).None?;
      }
    }
  }

  /** `Otp.deleteOne({email})` removes the first code for the email in
      natural order, not the one that matched: with two codes issued, the
      accepted newer code stays stored, and presenting it again is refused
      with "Pending user not found!". */
  lemma DeleteOneKeepsMatchedCode()
    ensures
      var older := OtpRecord("111111", "a@x.com", 1000 + OtpLifetimeMs, 1000);
      var newer := OtpRecord("222222", "a@x.com", 2000 + OtpLifetimeMs, 2000);
      var s := Store([], [PendingRecord("alice", "a@x.com", Some("hash"), 0, 0)], [older, newer]);
      var r := VerifyOtp(s, Text("222222"), Text("a@x.com"), 3000, "u1");
      && r.reply.status == 201
      && r.store.otps == [newer]
      && VerifyOtp(r.store, Text("222222"), Text("a@x.com"), 4000, "u2").reply == Reply(400, Message(MsgNoPending))
  {
    var older := OtpRecord("111111", "a@x.com", 1000 + OtpLifetimeMs, 1000);
    var newer := OtpRecord("222222", "a@x.com", 2000 + OtpLifetimeMs, 2000);
    var pending := PendingRecord("alice", "a@x.com", Some("hash"), 0, 0);
    var user := UserRecord("u1", "alice", "a@x.com", Some("hash"), 3000, 3000);
    var s1 := Store([user], [], [newer]);
    AcceptNewerOfTwo(older, newer, pending, 3000, "u1");
    assert LatestOtp(s1.otps, "a@x.com") == Some(newer);
    assert FirstMatch(s1.pending, (p: PendingRecord) => p.email == "a@x.com").None?;
  }

  /** With two codes issued for the only pending registration, presenting the
      newer one while it is live creates the User, and `deleteOne` removes the
      older code: the accepted code is the one left stored. */
  lemma AcceptNewerOfTwo(older: OtpRecord, newer: OtpRecord, pending: PendingRecord, now: int, newId: string)
    requires older.email == pending.email && newer.email == pending.email
    requires |pending.email| > 0 && |pending.username| > 0 && |newer.otp| > 0
    requires older.createdAt <= newer.createdAt && now <= newer.expireAt
    ensures VerifyOtp(Store([], [pending], [older, newer]), Text(newer.otp), Text(pending.email), now, newId)
         == Outcome(Reply(201, Message(MsgCreated)),
                    Store([UserRecord(newId, pending.username, pending.email, pending.password, now, now)], [], [newer]))
  {
    var s := Store([], [pending], [older, newer]);
    NewerOfTwoIsLatest(older, newer, pending.email);
    LiveLatestReachesPromote(s, newer, pending.email, now, newId);
    PromoteOnlyPending(pending, s.otps, now, newId);
    assert s.otps[1..] == [newer];
  }

  /** Once the first pending registration of the email is found, the
      promotion succeeds exactly when `User.create` accepts its copy, and
      answers 500 exactly when the create is refused. */
  lemma PromoteSucceedsIffCreate(s: Store, email: string, now: int, newId: string, j: nat)
    requires j < |s.pending| && s.pending[j].email == email
    requires forall k :: 0 <= k < j ==> s.pending[k].email != email
    ensures var p := s.pending[j];
      var create := CreateUser(s.users, UserRecord(newId, p.username, p.email, p.password, now, now));
      && (Promote(s, email, now, newId).reply.status == 201 <==> create.Some?)
      && (Promote(s, email, now, newId).reply == Reply(500, Message(MsgServerError)) <==> create.None?)
  {
    assert FirstMatch(s.pending, (q: PendingRecord) => q.email == email) == Some(j);
  }

  /** Presenting, as a string, the newest code for an email while it is live
      passes every check of verifyOtp and reaches the promotion. */
  lemma LiveLatestReachesPromote(s: Store, otp: OtpRecord, email: string, now: int, newId: string)
    requires |email| > 0 && |otp.otp| > 0
    requires LatestOtp(s.otps, email) == Some(otp) && now <= otp.expireAt
    ensures VerifyOtp(s, Text(otp.otp), Text(email), now, newId) == Promote(s, email, now, newId)
  {
    assert CastString(Text(email)) == Some(email);
  }

  /** Of two codes for the same email, the later-created one is the newest;
      on a tie the later insertion wins. */
  lemma NewerOfTwoIsLatest(older: OtpRecord, newer: OtpRecord, email: string)
    requires older.email == email && newer.email == email && older.createdAt <= newer.createdAt
    ensures LatestOtp([older, newer], email) == Some(newer)
  {
    assert [older, newer] == [older] + [newer];
    LatestSnoc([older], newer, email);
    assert [older] == [] + [older];
    LatestSnoc([], older, email);
  }

  /** Promoting the only pending registration creates its User, empties the
      pending collection and removes the first code, which is for its email. */
  lemma PromoteOnlyPending(pending: PendingRecord, otps: seq<OtpRecord>, now: int, newId: string)
    requires |pending.email| > 0 && |pending.username| > 0
    requires |otps| > 0 && otps[0].email == pending.email
    ensures Promote(Store([], [pending], otps), pending.email, now, newId)
         == Outcome(Reply(201, Message(MsgCreated)),
                    Store([UserRecord(newId, pending.username, pending.email, pending.password, now, now)], [], otps[1..]))
  {
    var email := pending.email;
    var user := UserRecord(newId, pending.username, email, pending.password, now, now);
    assert FirstMatch([pending], (p: PendingRecord) => p.email == email) == Some(0);
    assert CreateUser([], user) == Some([user]);
    assert DeletePendingByEmail([pending], email) == [];
    assert FirstMatch(otps, (x: OtpRecord) => x.email == email) == Some(0);
    assert DeleteOtpByEmail(otps, email) == otps[1..];
  }
}

=== FILE: records.dfy ===
/** The three document collections of the account store (the Otp, User and
    PendingUser schemas), held as sequences in natural (insertion) order, with
    the writes their indexes allow: a `create` that fails on a missing
    required string or a duplicate unique key, a `deleteOne` by email, and the
    TTL monitor's removal of expired one-time codes. Dates are milliseconds
    since the epoch. */
module Records {
  import opened Common

  /** An Otp document: `otp` and `email` are required strings (email not
      unique), `expireAt` a required Date carrying a TTL index with
      `expires: 0`, `createdAt` maintained by the timestamps option. */
  datatype OtpRecord = OtpRecord(otp: string, email: string, expireAt: int, createdAt: int)

  /** A User document: `username` and `email` required and unique, `password`
      an optional string, timestamps automatic; `id` is the ObjectId's hex string. */
  datatype UserRecord = UserRecord(id: string, username: string, email: string, password: Option<string>,
                                   createdAt: int, updatedAt: int)

  /** A PendingUser document: same shape and indexes as User, in its own collection. */
  datatype PendingRecord = PendingRecord(username: string, email: string, password: Option<string>,
                                         createdAt: int, updatedAt: int)

  datatype Store = Store(users: seq<UserRecord>, pending: seq<PendingRecord>, otps: seq<OtpRecord>)

  /** Mongoose's `required` validator on a String path rejects the empty string. */
  predicate RequiredString(s: string) {
    |s| > 0
  }

  /** The unique indexes on User: no two documents share an id, a username or an email. */
  ghost predicate UsersUnique(us: seq<UserRecord>) {
    forall i, j :: 0 <= i < j < |us| ==>
      us[i].id != us[j].id && us[i].username != us[j].username && us[i].email != us[j].email
  }

  /** The unique indexes on PendingUser: usernames and emails. */
  ghost predicate PendingUnique(ps: seq<PendingRecord>) {
    forall i, j :: 0 <= i < j < |ps| ==> ps[i].username != ps[j].username && ps[i].email != ps[j].email
  }

  /** Every pending record passed the `required` validators when it was written. */
  ghost predicate PendingRequired(ps: seq<PendingRecord>) {
    forall k :: 0 <= k < |ps| ==> RequiredString(ps[k].username) && RequiredString(ps[k].email)
  }

  /** `User.create(u)`: fails when a required string is empty or a unique key is taken. */
  function CreateUser(us: seq<UserRecord>, u: UserRecord): (r: Option<seq<UserRecord>>)
    ensures r.Some? <==>
      RequiredString(u.username) && RequiredString(u.email) &&
      forall k :: 0 <= k < |us| ==> us[k].id != u.id && us[k].username != u.username && us[k].email != u.email
    ensures r.Some? ==> |r.value| == |us| + 1 && r.value[..|us|] == us && r.value[|us|] == u
    ensures r.Some? && UsersUnique(us) ==> UsersUnique(r.value)
  {
    if RequiredString(u.username) && RequiredString(u.email) &&
       FirstMatch(us, (x: UserRecord) => x.id == u.id || x.username == u.username || x.email == u.email).None?
    then Some(us + [u])
    else None
  }

  /** `PendingUser.create(p)`, under the same validators and unique indexes. */
  function CreatePending(ps: seq<PendingRecord>, p: PendingRecord): (r: Option<seq<PendingRecord>>)
    ensures r.Some? <==>
      RequiredString(p.username) && RequiredString(p.email) &&
      forall k :: 0 <= k < |ps| ==> ps[k].username != p.username && ps[k].email != p.email
    ensures r.Some? ==> |r.value| == |ps| + 1 && r.value[..|ps|] == ps && r.value[|ps|] == p
    ensures r.Some? && PendingUnique(ps) ==> PendingUnique(r.value)
    ensures r.Some? && PendingRequired(ps) ==> PendingRequired(r.value)
  {
    if RequiredString(p.username) && RequiredString(p.email) &&
       FirstMatch(ps, (x: PendingRecord) => x.username == p.username || x.email == p.email).None?
    then Some(ps + [p])
    else None
  }

  /** `PendingUser.deleteOne({email})`. Under the unique email index this leaves
      no pending record with that email, and every other record is kept. */
  function DeletePendingByEmail(ps: seq<PendingRecord>, email: string): (r: seq<PendingRecord>)
    ensures PendingUnique(ps) ==> PendingUnique(r)
    ensures PendingRequired(ps) ==> PendingRequired(r)
    ensures PendingUnique(ps) ==> forall k :: 0 <= k < |r| ==> r[k].email != email
    ensures forall k :: 0 <= k < |ps| && ps[k].email != email ==> ps[k] in r
    ensures forall k :: 0 <= k < |r| ==> r[k] in ps
    // exactly the first record with the email is removed; the rest keep their order
    ensures (exists k :: 0 <= k < |ps| && ps[k].email == email) ==>
      exists i :: 0 <= i < |ps| && ps[i].email == email
        && (forall k :: 0 <= k < i ==> ps[k].email != email) && r == RemoveAt(ps, i)
    ensures (forall k :: 0 <= k < |ps| ==> ps[k].email != email) ==> r == ps
  {
    match FirstMatch(ps, (x: PendingRecord) => x.email == email)
    case None => ps
    case Some(i) => RemoveAt(ps, i)
  }

  /** `Otp.deleteOne({email})`: the first code for the email in natural order,
      whichever code that is. */
  function DeleteOtpByEmail(otps: seq<OtpRecord>, email: string): (r: seq<OtpRecord>)
    ensures (exists k :: 0 <= k < |otps| && otps[k].email == email) ==> |r| == |otps| - 1
    ensures (forall k :: 0 <= k < |otps| ==> otps[k].email != email) ==> r == otps
    ensures forall k :: 0 <= k < |r| ==> r[k] in otps
    // exactly the first code for the email is removed; the rest keep their order
    ensures (exists k :: 0 <= k < |otps| && otps[k].email == email) ==>
      exists i :: 0 <= i < |otps| && otps[i].email == email
        && (forall k :: 0 <= k < i ==> otps[k].email != email) && r == RemoveAt(otps, i)
  {
    DeleteFirst(otps, (x: OtpRecord) => x.email == email)
  }

  /** A pass of the TTL monitor at time `t`: with `expires: 0`, every code
      whose `expireAt` lies before `t` is removed; the rest keep their order. */
  function TtlSweep(otps: seq<OtpRecord>, t: int): (r: seq<OtpRecord>)
    ensures forall k :: 0 <= k < |r| ==> r[k] in otps && t <= r[k].expireAt
    ensures forall k :: 0 <= k < |otps| && t <= otps[k].expireAt ==> otps[k] in r
    decreases |otps|
  {
    if |otps| == 0 then []
    else
      var last := otps[|otps| - 1];
      var rest := TtlSweep(otps[..|otps| - 1], t);
      assert forall k :: 0 <= k < |otps| - 1 ==> otps[k] == otps[..|otps| - 1][k];
      if last.expireAt < t then rest else rest + [last]
  }

  /** A single code survives a sweep exactly when it has not expired. */
  lemma TtlSweepOne(x: OtpRecord, t: int)
    ensures TtlSweep([x], t) == if x.expireAt < t then [] else [x]
  {
    assert [x][..0] == [];
  }

  /** Sweeping a concatenation sweeps each part in place. With TtlSweepOne
      this fixes the survivors' order and multiplicity: the sweep keeps the
      live codes as a subsequence, in their original order. */
  lemma {:induction false} TtlSweepAppend(a: seq<OtpRecord>, b: seq<OtpRecord>, t: int)
    ensures TtlSweep(a + b, t) == TtlSweep(a, t) + TtlSweep(b, t)
    decreases |b|
  {
    if |b| == 0 {
      assert a + b == a;
    } else {
      var init := b[..|b| - 1];
      assert (a + b)[..|a + b| - 1] == a + init;
      assert (a + b)[|a + b| - 1] == b[|b| - 1];
      TtlSweepAppend(a, init, t);
    }
  }
}

=== FILE: session.dfy ===
/** The account flow across the handlers: `register`, then `verifyOtp` with
    the code that was mailed, then `login`, then a request carrying the issued
    token through `verifyToken`. The hash, compare, sign and verify functions
    are the same parameters the handlers take, related by the two facts the
    libraries provide: bcrypt accepts a password against its own hash, and
    jsonwebtoken verifies what it signed. */
module Session {
  import opened Common
  import opened JsValues
  import opened Records
  import opened Http
  import opened OtpController
  import opened AuthController
  import opened AuthMiddleware

  /** A fresh sign-up with a new username and email, confirmed before the
      code expires, creates the User, and logging in with the same password
      returns a token signed for that User for one day. */
  lemma SignUpThenLogIn(s: Store, u: string, p: string, e: string, now: int, later: int, rnd: real,
                        newId: string, hash: string -> string, compare: (string, string) -> bool,
                        sign: (Claims, nat) -> string)
    requires 0.0 <= rnd < 1.0
    requires |u| > 0 && |p| > 0 && |e| > 0
    requires forall k :: 0 <= k < |s.users| ==>
      s.users[k].id != newId && s.users[k].username != u && s.users[k].email != e
    requires forall k :: 0 <= k < |s.pending| ==> s.pending[k].username != u && s.pending[k].email != e
    requires forall k :: 0 <= k < |s.otps| ==> s.otps[k].createdAt <= now
    requires now <= later <= now + OtpLifetimeMs
    requires compare(p, hash(p))
    ensures
      var r1 := Register(s, Text(u), Text(p), Text(e), now, rnd, hash);
      var r2 := VerifyOtp(r1.store, Text(CodeString(OtpCode(rnd))), Text(e), later, newId);
      var r3 := Login(r2.store.users, Some(LoginBody(Text(u), Text(p))), compare, sign);
      && r1.reply.status == 200
      && r2.reply.status == 201
      && r3 == Reply(200, TokenBody(sign(Claims(newId, u), TokenLifetimeSeconds)))
  {
    var code := CodeString(OtpCode(rnd));
    var rec := PendingRecord(u, e, Some(hash(p)), now, now);
    var otp := OtpRecord(code, e, now + OtpLifetimeMs, now);
    var s1 := Store(s.users, s.pending + [rec], s.otps + [otp]);
    FreshRegistration(s, u, p, e, now, rnd, hash);
    var user := UserRecord(newId, u, e, Some(hash(p)), later, later);
    FreshConfirmation(s, rec, otp, later, newId);
    FreshLogIn(s.users, user, p, compare, sign);
  }

  /** Registering a username and email nobody holds, confirmed or pending,
      appends one pending record with the hash and one code for the email. */
  lemma FreshRegistration(s: Store, u: string, p: string, e: string, now: int, rnd: real, hash: string -> string)
    requires 0.0 <= rnd < 1.0
    requires |u| > 0 && |p| > 0 && |e| > 0
    requires forall k :: 0 <= k < |s.users| ==> s.users[k].username != u && s.users[k].email != e
    requires forall k :: 0 <= k < |s.pending| ==> s.pending[k].username != u && s.pending[k].email != e
    ensures Register(s, Text(u), Text(p), Text(e), now, rnd, hash)
         == Outcome(Reply(200, MessageWithEmail(MsgOtpSent, Text(e))),
                    Store(s.users, s.pending + [PendingRecord(u, e, Some(hash(p)), now, now)],
                          s.otps + [OtpRecord(CodeString(OtpCode(rnd)), e, now + OtpLifetimeMs, now)]))
  {
    assert FirstMatch(s.users, (x: UserRecord) => x.username == u || x.email == e).None?;
    assert UpsertPending(s.pending, u, e, hash(p), now) == Some(s.pending + [PendingRecord(u, e, Some(hash(p)), now, now)]);
  }

  /** Confirming with the newest code for the email before it expires turns
      the one pending record for the email into a User. */
  lemma FreshConfirmation(s: Store, rec: PendingRecord, otp: OtpRecord, now: int, newId: string)
    requires |otp.otp| > 0 && |rec.email| > 0 && |rec.username| > 0 && otp.email == rec.email
    requires forall k :: 0 <= k < |s.users| ==>
      s.users[k].id != newId && s.users[k].username != rec.username && s.users[k].email != rec.email
    requires forall k :: 0 <= k < |s.pending| ==> s.pending[k].email != rec.email
    requires forall k :: 0 <= k < |s.otps| ==> s.otps[k].createdAt <= otp.createdAt
    requires now <= otp.expireAt
    ensures var r := VerifyOtp(Store(s.users, s.pending + [rec], s.otps + [otp]), Text(otp.otp), Text(rec.email), now, newId);
      && r.reply.status == 201
      && r.store.users == s.users + [UserRecord(newId, rec.username, rec.email, rec.password, now, now)]
  {
    var s1 := Store(s.users, s.pending + [rec], s.otps + [otp]);
    LatestSnoc(s.otps, otp, rec.email);
    assert LatestOtp(s1.otps, rec.email) == Some(otp);
    assert forall k :: 0 <= k < |s.pending| ==> s1.pending[k] == s.pending[k];
    assert s1.pending[|s.pending|] == rec;
    assert FirstMatch(s1.pending, (x: PendingRecord) => x.email == rec.email) == Some(|s.pending|);
    LiveLatestReachesPromote(s1, otp, rec.email, now, newId);
    var user := UserRecord(newId, rec.username, rec.email, rec.password, now, now);
    assert CreateUser(s.users, user) == Some(s.users + [user]);
  }

  /** Logging in as the newest User, whose username no earlier User holds,
      with a password bcrypt accepts returns a one-day token for that User. */
  lemma FreshLogIn(users: seq<UserRecord>, user: UserRecord, p: string,
                   compare: (string, string) -> bool, sign: (Claims, nat) -> string)
    requires forall k :: 0 <= k < |users| ==> users[k].username != user.username
    requires user.password.Some? && compare(p, user.password.value)
    ensures Login(users + [user], Some(LoginBody(Text(user.username), Text(p))), compare, sign)
         == Reply(200, TokenBody(sign(Claims(user.id, user.username), TokenLifetimeSeconds)))
  {
    var all := users + [user];
    assert forall k :: 0 <= k < |users| ==> all[k] == users[k];
    assert all[|users|] == user;
    assert FirstMatch(all, (x: UserRecord) => x.username == user.username) == Some(|users|);
  }

  /** A token signed by login, sent as `Bearer <token>`, passes the
      middleware with the claims it was signed with. */
  lemma SignedTokenPassesGuard(c: Claims, sign: (Claims, nat) -> string, verify: string -> Option<Claims>)
    requires var token := sign(c, TokenLifetimeSeconds);
      |token| > 0 && ' ' !in token && verify(token) == Some(c)
    ensures VerifyToken(map[HeaderKey := "Bearer " + sign(c, TokenLifetimeSeconds)], verify) == [Next(c)]
  {
    BearerTokenRead(sign(c, TokenLifetimeSeconds));
  }

  /** The whole flow: the token login returns after a confirmed sign-up lets
      the next request through, with `req.user` holding the new User's id and
      username. */
  lemma SignUpLogInAndPass(s: Store, u: string, p: string, e: string, now: int, later: int, rnd: real,
                           newId: string, hash: string -> string, compare: (string, string) -> bool,
                           sign: (Claims, nat) -> string, verify: string -> Option<Claims>)
    requires 0.0 <= rnd < 1.0
    requires |u| > 0 && |p| > 0 && |e| > 0
    requires forall k :: 0 <= k < |s.users| ==>
      s.users[k].id != newId && s.users[k].username != u && s.users[k].email != e
    requires forall k :: 0 <= k < |s.pending| ==> s.pending[k].username != u && s.pending[k].email != e
    requires forall k :: 0 <= k < |s.otps| ==> s.otps[k].createdAt <= now
    requires now <= later <= now + OtpLifetimeMs
    requires compare(p, hash(p))
    requires forall c: Claims :: |sign(c, TokenLifetimeSeconds)| > 0 && ' ' !in sign(c, TokenLifetimeSeconds)
    requires forall c: Claims :: verify(sign(c, TokenLifetimeSeconds)) == Some(c)
    ensures
      var r1 := Register(s, Text(u), Text(p), Text(e), now, rnd, hash);
      var r2 := VerifyOtp(r1.store, Text(CodeString(OtpCode(rnd))), Text(e), later, newId);
      var r3 := Login(r2.store.users, Some(LoginBody(Text(u), Text(p))), compare, sign);
      && r3.status == 200 && r3.body.TokenBody?
      && VerifyToken(map[HeaderKey := "Bearer " + r3.body.token], verify) == [Next(Claims(newId, u))]
  {
    SignUpThenLogIn(s, u, p, e, now, later, rnd, newId, hash, compare, sign);
    SignedTokenPassesGuard(Claims(newId, u), sign, verify);
  }
}

=== FILE: soil_prompt.dfy ===
/** `makeSoilFertilizerPrompt` (soilFertilizerPrompt.js): one template
    literal with five substitutions, the four farmer fields and a notes line
    that is present only when `message` is truthy. Substituted values are
    inserted as they are, without escaping. The literal parts between the
    substitutions are the constants below. */
module SoilPrompt {
  import opened JsValues

  // The literal parts of the template, in order.
  const Intro :=
      "You are an expert agronomist and soil scientist.\n"
      + "Your task is to generate a simple, practical, and safe fertilizer and soil health recommendation for farmers.\n"
      + "\n"
      + "General Instructions:\n"
      + "- Always output valid JSON only \U{2014} no explanations, no extra text, no markdown code fences.\n"
      + "- Keep the language easy to understand for farmers.\n"
      + "- Base suggestions on sustainable and safe practices.\n"
      + "- If unsure about missing data, still produce valid JSON with best common practices for the given crop/region.\n"
      + "- Recommendations must avoid excessive chemical fertilizer and suggest balanced use of organic amendments.\n"
      + "\n"
      + "Farmer Profile:\n"
      + "- Locality/Region: "
  const CropLabel := "\n- Crop: "
  const StageLabel := "\n- Growth Stage: "
  const SoilLabel :=
      " (e.g., seedling, vegetative, flowering, fruiting, harvest)\n- Soil Type: "
  const AfterSoil := " (e.g., sandy, clay, loam)\n"
  const Outro :=
      "\n"
      + "\n"
      + "Rules:\n"
      + "- Output must be in the exact JSON format below.\n"
      + "- Use practical fertilizers (NPK, compost, manure, etc.) with quantity guidance.\n"
      + "- Add irrigation advice if relevant.\n"
      + "- Include soil health improvement tips for the long run.\n"
      + "- Keep all numbers in integers or decimals only.\n"
      + "- Output must start with { and end with }, no trailing commas.\n"
      + "- Additionally, provide a field \"speech_index\" which contains a very short and simple Hindi summary of the advice (1\U{2013}2 sentences, spoken style).\n"
      + "\n"
      + "Output Format (JSON Object):\n"
      + "{\n"
      + "  \"farmer\": {\n"
      + "    \"locality\": string,\n"
      + "    \"crop\": string,\n"
      + "    \"growth_stage\": string,\n"
      + "    \"soil_type\": string\n"
      + "  },\n"
      + "  \"overview\": string,\n"
      + "  \"fertilizer_recommendations\": [\n"
      + "    { \"type\": string, \"quantity\": number, \"unit\": string, \"application_time\": string }\n"
      + "  ],\n"
      + "  \"organic_alternatives\": [ string, string, string ],\n"
      + "  \"irrigation_advice\": string,\n"
      + "  \"soil_health_tips\": [ string, string, string ],\n"
      + "  \"caution\": [ string, string ],\n"
      + "  \"speech_index\": string // short Hindi summary for farmers\n"
      + "}"

  const NotesLabel := "- Additional notes from farmer: "

  /** `${message ? `- Additional notes from farmer: ${message}` : ''}`: empty
      exactly when `message` is falsy. */
  function NotesLine(message: Field): (r: string)
    ensures Truthy(message) <==> |r| > 0
    ensures Truthy(message) ==> r == NotesLabel + Interpolate(message)
  {
    if Truthy(message) then NotesLabel + Interpolate(message) else ""
  }

  /** `makeSoilFertilizerPrompt(locality, cropType, growthStage, soilType, message)`:
      the template's literal parts with the five substitutions in between.
      Its properties are the lemmas below, kept apart from the function so
      that callers never have to look into the long literal text. */
  function MakePrompt(locality: Field, cropType: Field, growthStage: Field, soilType: Field, message: Field)
    : string
  {
    Intro + Interpolate(locality) + CropLabel + Interpolate(cropType) + StageLabel + Interpolate(growthStage)
    + SoilLabel + Interpolate(soilType) + AfterSoil + NotesLine(message) + Outro
  }

  /** The prompt always opens with the same instructions and closes with the
      same rules and output format, whatever the arguments. */
  lemma ConstantFrame(locality: Field, cropType: Field, growthStage: Field, soilType: Field, message: Field)
    ensures var p := MakePrompt(locality, cropType, growthStage, soilType, message);
      && |Intro| + |Outro| <= |p|
      && p[..|Intro|] == Intro
      && p[|p| - |Outro|..] == Outro
  {
    Split9(Intro, Interpolate(locality), CropLabel, Interpolate(cropType), StageLabel, Interpolate(growthStage),
           SoilLabel, Interpolate(soilType), AfterSoil, NotesLine(message), Outro);
  }

  /** The prompt's length is that of the fixed text plus the four fields,
      plus the notes line: the notes line is there if and only if `message`
      is truthy. */
  lemma NotesLineIffTruthy(locality: Field, cropType: Field, growthStage: Field, soilType: Field, message: Field)
    ensures var fixed := |Intro| + |CropLabel| + |StageLabel| + |SoilLabel| + |AfterSoil| + |Outro|
                         + |Interpolate(locality)| + |Interpolate(cropType)|
                         + |Interpolate(growthStage)| + |Interpolate(soilType)|;
      && (Truthy(message) ==>
           |MakePrompt(locality, cropType, growthStage, soilType, message)| == fixed + |NotesLabel| + |Interpolate(message)|)
      && (!Truthy(message) <==> |MakePrompt(locality, cropType, growthStage, soilType, message)| == fixed)
  {
  }

  /** Every falsy `message` (absent, empty, or 0) yields the same prompt. */
  lemma FalsyMessagesAgree(locality: Field, cropType: Field, growthStage: Field, soilType: Field,
                           m1: Field, m2: Field)
    requires !Truthy(m1) && !Truthy(m2)
    ensures MakePrompt(locality, cropType, growthStage, soilType, m1)
         == MakePrompt(locality, cropType, growthStage, soilType, m2)
  {
  }

  /** The locality appears verbatim right after the fixed instructions. */
  lemma LocalityVerbatim(locality: Field, cropType: Field, growthStage: Field, soilType: Field, message: Field)
    ensures var p := MakePrompt(locality, cropType, growthStage, soilType, message);
      var l := Interpolate(locality);
      && |Intro| + |l| <= |p|
      && p[|Intro|..|Intro| + |l|] == l
  {
    Split9(Intro, Interpolate(locality), CropLabel, Interpolate(cropType), StageLabel, Interpolate(growthStage),
           SoilLabel, Interpolate(soilType), AfterSoil, NotesLine(message), Outro);
  }

  /** The crop type appears verbatim right after its label. */
  lemma CropVerbatim(locality: Field, cropType: Field, growthStage: Field, soilType: Field, message: Field)
    ensures var p := MakePrompt(locality, cropType, growthStage, soilType, message);
      var o := |Intro + Interpolate(locality)|;
      var c := Interpolate(cropType);
      && o + |CropLabel + c| <= |p|
      && p[o..o + |CropLabel + c|] == CropLabel + c
  {
    Split7(Intro + Interpolate(locality), CropLabel, Interpolate(cropType), StageLabel, Interpolate(growthStage),
           SoilLabel, Interpolate(soilType), AfterSoil, NotesLine(message), Outro);
  }

  /** The growth stage appears verbatim right after its label. */
  lemma StageVerbatim(locality: Field, cropType: Field, growthStage: Field, soilType: Field, message: Field)
    ensures var p := MakePrompt(locality, cropType, growthStage, soilType, message);
      var o := |Intro + Interpolate(locality) + CropLabel + Interpolate(cropType)|;
      var g := Interpolate(growthStage);
      && o + |StageLabel + g| <= |p|
      && p[o..o + |StageLabel + g|] == StageLabel + g
  {
    Split5(Intro + Interpolate(locality) + CropLabel + Interpolate(cropType), StageLabel, Interpolate(growthStage),
           SoilLabel, Interpolate(soilType), AfterSoil, NotesLine(message), Outro);
  }

  /** The soil type appears verbatim right after its label. */
  lemma SoilVerbatim(locality: Field, cropType: Field, growthStage: Field, soilType: Field, message: Field)
    ensures var p := MakePrompt(locality, cropType, growthStage, soilType, message);
      var o := |Intro + Interpolate(locality) + CropLabel + Interpolate(cropType) + StageLabel + Interpolate(growthStage)|;
      var s := Interpolate(soilType);
      && o + |SoilLabel + s| <= |p|
      && p[o..o + |SoilLabel + s|] == SoilLabel + s
  {
    Split3(Intro + Interpolate(locality) + CropLabel + Interpolate(cropType) + StageLabel + Interpolate(growthStage),
           SoilLabel, Interpolate(soilType), AfterSoil, NotesLine(message), Outro);
  }

  /** After the soil type come the soil examples and the notes line, verbatim,
      and then nothing but the closing rules: with the lemmas above this pins
      every character of the prompt. */
  lemma NotesVerbatim(locality: Field, cropType: Field, growthStage: Field, soilType: Field, message: Field)
    ensures var p := MakePrompt(locality, cropType, growthStage, soilType, message);
      var o := |Intro + Interpolate(locality) + CropLabel + Interpolate(cropType) + StageLabel + Interpolate(growthStage)
                + SoilLabel + Interpolate(soilType)|;
      var n := NotesLine(message);
      && o + |AfterSoil + n| + |Outro| == |p|
      && p[o..o + |AfterSoil + n|] == AfterSoil + n
  {
    Split1(Intro + Interpolate(locality) + CropLabel + Interpolate(cropType) + StageLabel + Interpolate(growthStage)
           + SoilLabel + Interpolate(soilType), AfterSoil, NotesLine(message), Outro);
  }

  /** Without escaping, the fields cannot always be read back: a locality
      that embeds the crop label yields the same prompt as a different
      locality and crop type. */
  lemma FieldsNotRecoverable(u: string, v: string, w: string, growthStage: Field, soilType: Field, message: Field)
    ensures u + CropLabel + v != u
    ensures MakePrompt(Text(u + CropLabel + v), Text(w), growthStage, soilType, message)
         == MakePrompt(Text(u), Text(v + CropLabel + w), growthStage, soilType, message)
  {
    ShiftAcrossLabel(Intro, u, CropLabel, v, w);
  }

  // Positions in a concatenation, stated over arbitrary strings so that the
  // long literal parts never have to be looked into.

  /** A text `a + b + c` opens with `a`, closes with `c` and holds `b` in between. */
  lemma Framed(a: string, b: string, c: string)
    ensures var t := a + b + c;
      && t[..|a|] == a
      && t[|t| - |c|..] == c
      && t[|a|..|a| + |b|] == b
  {
  }

  /** An eleven-part text: its first part, the second right after it, its last part. */
  lemma Split9(a: string, l: string, b: string, c: string, d: string, g: string, e: string, s: string,
               f: string, n: string, o: string)
    ensures var t := a + l + b + c + d + g + e + s + f + n + o;
      && |a| + |l| + |o| <= |t|
      && t[..|a|] == a
      && t[|t| - |o|..] == o
      && t[|a|..|a| + |l|] == l
  {
    var t := a + l + b + c + d + g + e + s + f + n + o;
    var mid := b + c + d + g + e + s + f + n;
    assert t == a + l + mid + o;
    Framed(a, l, mid + o);
    Framed(a + l + mid, [], o);
  }

  /** A label and its substitution, followed by seven more parts. */
  lemma Split7(pre: string, lab: string, x: string, d: string, g: string, e: string, s: string,
               f: string, n: string, o: string)
    ensures var t := pre + lab + x + d + g + e + s + f + n + o;
      && |pre| + |lab + x| <= |t|
      && t[|pre|..|pre| + |lab + x|] == lab + x
  {
    var rest := d + g + e + s + f + n + o;
    assert pre + lab + x + d + g + e + s + f + n + o == pre + (lab + x) + rest;
    Framed(pre, lab + x, rest);
  }

  /** A label and its substitution, followed by five more parts. */
  lemma Split5(pre: string, lab: string, x: string, e: string, s: string, f: string, n: string, o: string)
    ensures var t := pre + lab + x + e + s + f + n + o;
      && |pre| + |lab + x| <= |t|
      && t[|pre|..|pre| + |lab + x|] == lab + x
  {
    var rest := e + s + f + n + o;
    assert pre + lab + x + e + s + f + n + o == pre + (lab + x) + rest;
    Framed(pre, lab + x, rest);
  }

  /** A label and its substitution, followed by three more parts. */
  lemma Split3(pre: string, lab: string, x: string, f: string, n: string, o: string)
    ensures var t := pre + lab + x + f + n + o;
      && |pre| + |lab + x| <= |t|
      && t[|pre|..|pre| + |lab + x|] == lab + x
  {
    var rest := f + n + o;
    assert pre + lab + x + f + n + o == pre + (lab + x) + rest;
    Framed(pre, lab + x, rest);
  }

  /** A label and its substitution, followed by the last part only. */
  lemma Split1(pre: string, lab: string, x: string, o: string)
    ensures var t := pre + lab + x + o;
      && |pre| + |lab + x| + |o| == |t|
      && t[|pre|..|pre| + |lab + x|] == lab + x
  {
    assert pre + lab + x + o == pre + (lab + x) + o;
    Framed(pre, lab + x, o);
  }

  /** Moving a label-delimited piece from one substitution to the next leaves the text unchanged. */
  lemma ShiftAcrossLabel(a: string, u: string, lab: string, v: string, w: string)
    ensures a + (u + lab + v) + lab + w == a + u + lab + (v + lab + w)
  {
  }
}
